=== FILE: README.md ===
# Markdown keyboard edit engine, in Dafny

This project models the edit engine of an Android markdown keyboard. The
engine is `performKeyAction` in `MarkdownKeyboard.kt`. A key press yields one
`KeyAction`. The engine reads a little text around the cursor through the
host's `InputConnection` and answers with a few calls: `commitText`,
`deleteSurroundingText`, the batch-edit brackets and `sendKeyEvent` on the
connection, or `requestHideSelf` on the input method service.

The files:

- `optional.dfy` (`Optional`): the `Option` type, which models Kotlin's nullable results.
- `strings.dfy` (`Strings`): the string operations the engine calls, `split`, `last` and `replaceFirst`.
  - `Split` is `split` on one delimiter, and `ThisLine` is `split("\n").last()`, the source's `getThisLine`.
  - Literal `replaceFirst` is `ReplaceFirst`.
  - `IndexOf` is the search behind `ReplaceFirst`.
  - Each has a specification lemma.
- `connection.dfy` (`Connection`): the input connection as pure functions over an immutable `Editor`.
  - The `Editor` holds the text, the selection, whether reads succeed, the batch depth, and a log of the events handed to the host.
  - The semantics follow the documented behaviour of `BaseInputConnection`.
  - `Op` is one call the engine makes, on the connection or on the input method service. `Step` performs one call, and `Apply` performs a list of calls.
- `keyboard.dfy` (`Keyboard`): `KeyAction` and the engine.
  - `KeyAction` is the sealed interface `KeyAction` (MarkdownKeyboard.kt lines 424-435), one constructor per implementation, in the same order.
  - `Plan(action, e)` is the list of calls that `performKeyAction` makes.
  - `Perform(action, e)` is the editor after those calls.
  - Every branch does all of its reads before its first write, and `beginBatchEdit` does not change what a read returns. So the reads are taken on the editor as it was when the key was pressed.
- `edit_laws.dfy` (`EditLaws`): what each key does to the editor, stated against the editor's text, selection and batch depth.
- `findings.dfy` (`Findings`): three places where the code does not do what it evidently means to do.
  - Each comes with the behaviour as written, an input that shows it, and a corrected engine `PerformCorrected` with the intended property proved.
- `scenarios.dfy` (`Scenarios`): the engine on a few concrete inputs.

`Perform` is the code as written. The corrected behaviour lives only in
`Findings.PerformCorrected`.

## Model

| member | source | states |
|---|---|---|
| Keyboard.Plan | src/app/src/main/java/com/creategoodthings/markdownKeyboard/ui/MarkdownKeyboard.kt:346-415 | The calls each key makes; CommitText commits its text with the cursor after it, Enter and Done hand over one event, Cursive, Underline and Empty make no call. No contract of its own: specified through `Perform`, `PlanEmits`, `DeletePlanCases`, `BoldInsertsEmptyPair`, `BoldWrapsSelection` and `IndentRewrites`. |
| Keyboard.DeletePlan | src/app/src/main/java/com/creategoodthings/markdownKeyboard/ui/MarkdownKeyboard.kt:351-370 | Delete's calls. No contract of its own: specified by `EditLaws.DeletePlanCases` (the decision against the full text, both directions) and `Keyboard.DeletePlanSingle`. |
| Keyboard.BoldPlan | src/app/src/main/java/com/creategoodthings/markdownKeyboard/ui/MarkdownKeyboard.kt:378-390 | Bold's calls. No contract of its own: specified by `EditLaws.BoldInsertsEmptyPair` and `EditLaws.BoldWrapsSelection`, which state the plan and its effect. |
| Keyboard.IndentPlan | src/app/src/main/java/com/creategoodthings/markdownKeyboard/ui/MarkdownKeyboard.kt:393-410 | The indent keys' calls for a given window, target and replacement. No contract of its own: specified by `EditLaws.IndentRewrites` and `EditLaws.IndentUnreadableLeavesBatchOpen`. |
| Keyboard.Perform | src/app/src/main/java/com/creategoodthings/markdownKeyboard/ui/MarkdownKeyboard.kt:341-416 | Every key keeps the editor well-formed. Only Enter, Done and Delete's fallback hand the host an event: Enter a key-down of KEYCODE_ENTER, Done a hide request, Delete at most one key-down of KEYCODE_DEL. Every other key hands over none. |
| Keyboard.PlanEmits | src/app/src/main/java/com/creategoodthings/markdownKeyboard/ui/MarkdownKeyboard.kt:346-415 | The host events among each key's calls: exactly one for Enter and Done, none or one backspace for Delete, none for every other key. |
| Keyboard.DeletePlanSingle | src/app/src/main/java/com/creategoodthings/markdownKeyboard/ui/MarkdownKeyboard.kt:351-370 | Delete makes exactly one call: a delete around the cursor or a raw backspace key event. |
| Keyboard.BoldPlanSilent | src/app/src/main/java/com/creategoodthings/markdownKeyboard/ui/MarkdownKeyboard.kt:378-390 | Bold makes only text and batch calls. |
| Keyboard.IndentPlanSilent | src/app/src/main/java/com/creategoodthings/markdownKeyboard/ui/MarkdownKeyboard.kt:393-410 | The indent keys make only text and batch calls. |
| EditLaws.CommitTextInserts | src/app/src/main/java/com/creategoodthings/markdownKeyboard/ui/MarkdownKeyboard.kt:347-350 | A character key replaces the selection by its text and leaves the cursor right after it. Batch depth and events are unchanged. |
| EditLaws.EnterAndDoneAreHostEvents | src/app/src/main/java/com/creategoodthings/markdownKeyboard/ui/MarkdownKeyboard.kt:371-377 | Enter and Done leave text, selection and batch depth alone. They only append a raw Enter key-down or a hide request to what the host receives. |
| EditLaws.IdleKeys | src/app/src/main/java/com/creategoodthings/markdownKeyboard/ui/MarkdownKeyboard.kt:391-392 | Cursive, Underline and Empty leave the editor exactly as it was (also lines 411-414). |
| EditLaws.BoldPairInWindow | src/app/src/main/java/com/creategoodthings/markdownKeyboard/ui/MarkdownKeyboard.kt:352-359 | In the two-character windows read on each side of the selection, the test `prefix == "**" && suffix == "**"` holds exactly when the selection sits between two bold markers in the full text. |
| EditLaws.StarPairInWindow | src/app/src/main/java/com/creategoodthings/markdownKeyboard/ui/MarkdownKeyboard.kt:358-362 | The test `prefix.last() == '*' && suffix.first() == '*'` on non-empty windows holds exactly when a star stands on each side of the selection in the full text. |
| EditLaws.DeletePlanCases | src/app/src/main/java/com/creategoodthings/markdownKeyboard/ui/MarkdownKeyboard.kt:351-370 | Delete's decision in terms of the full text. With a `**` pair around the selection it deletes two characters on each side. Otherwise, with a `*` pair, it deletes one on each side. Otherwise, or when the text cannot be read, it sends the backspace key. |
| EditLaws.DeleteCollapsesBoldPair | src/app/src/main/java/com/creategoodthings/markdownKeyboard/ui/MarkdownKeyboard.kt:359-361 | Between `**` and `**`, Delete removes both markers and keeps the selection and everything else. |
| EditLaws.DeleteCollapsesStarPair | src/app/src/main/java/com/creategoodthings/markdownKeyboard/ui/MarkdownKeyboard.kt:362-364 | Between `*` and `*` (and not `**`/`**`), Delete removes one star on each side and keeps the rest. |
| EditLaws.DeleteFallsBack | src/app/src/main/java/com/creategoodthings/markdownKeyboard/ui/MarkdownKeyboard.kt:368-369 | Delete sends the raw backspace exactly when the text is unreadable or no star stands on each side of the selection. In that case the text is not touched. |
| EditLaws.TrimmedShape | src/app/src/main/java/com/creategoodthings/markdownKeyboard/ui/MarkdownKeyboard.kt:360-363 | Deleting n characters on each side keeps the selection. It shortens the text on both sides by n, from the selection outwards, and changes nothing else. |
| EditLaws.DeleteNeverOverreaches | src/app/src/main/java/com/creategoodthings/markdownKeyboard/ui/MarkdownKeyboard.kt:351-370 | Delete never touches the selection. It removes the same number of characters (at most two) on both sides, from the selection outwards. It leaves the text unchanged exactly when it sends the backspace. |
| EditLaws.BoldInsertsEmptyPair | src/app/src/main/java/com/creategoodthings/markdownKeyboard/ui/MarkdownKeyboard.kt:379-383 | With no readable selection, Bold replaces the selection by `****` and leaves the cursor between the two markers, inside one balanced batch. |
| EditLaws.BoldWrapsSelection | src/app/src/main/java/com/creategoodthings/markdownKeyboard/ui/MarkdownKeyboard.kt:384-389 | With a selection, Bold deletes as many characters as are selected from in front of the selection. It then replaces the selection by `**selection**` and leaves the cursor after it. See the findings. |
| EditLaws.IndentUnreadableLeavesBatchOpen | src/app/src/main/java/com/creategoodthings/markdownKeyboard/ui/MarkdownKeyboard.kt:394-396 | When the text before the cursor cannot be read, an indent key returns early. The text is unchanged, but one batch is left open (same at 403-405). |
| EditLaws.CurrentLineSpec | src/app/src/main/java/com/creategoodthings/markdownKeyboard/ui/MarkdownKeyboard.kt:395-396 | The line the indent keys work on ends at the cursor, has no line break and is no longer than the window (100 characters for the keys). When it is shorter than the window, it starts at the text's start or right after a line break. |
| EditLaws.IndentRewrites | src/app/src/main/java/com/creategoodthings/markdownKeyboard/ui/MarkdownKeyboard.kt:393-410 | An indent key replaces the current line in front of the cursor by the line with its first `target` replaced. The cursor lands after the new line, the text after the selection stays, and the batch closes. A non-empty selection is replaced too, so its text is lost (third finding). |
| EditLaws.IndentForwardRewritesLine | src/app/src/main/java/com/creategoodthings/markdownKeyboard/ui/MarkdownKeyboard.kt:393-401 | IndentForward puts four spaces in front of the current line. The text before the line and after the cursor is unchanged. A selection is replaced by the indented line. |
| EditLaws.IndentForwardEmptyLine | src/app/src/main/java/com/creategoodthings/markdownKeyboard/ui/MarkdownKeyboard.kt:395-399 | With nothing selected, at the start of the text or right after a line break, IndentForward inserts four spaces at the cursor. |
| EditLaws.IndentBackRemovesFirstRun | src/app/src/main/java/com/creategoodthings/markdownKeyboard/ui/MarkdownKeyboard.kt:402-410 | IndentBack takes the first run of four spaces out of the current line, wherever in the line it is. A selection is replaced by the new line. |
| EditLaws.IndentBackWithoutRun | src/app/src/main/java/com/creategoodthings/markdownKeyboard/ui/MarkdownKeyboard.kt:406-409 | With nothing selected, IndentBack on a line without four spaces in a row leaves the editor exactly as it was. |
| EditLaws.WholeLineInWindow | src/app/src/main/java/com/creategoodthings/markdownKeyboard/ui/MarkdownKeyboard.kt:395-396 | A line that starts after a line break (or at the text's start) and fits in the window is what the indent keys see as the current line. |
| EditLaws.IndentedLineSeen | src/app/src/main/java/com/creategoodthings/markdownKeyboard/ui/MarkdownKeyboard.kt:395-405 | After IndentForward, IndentBack sees the indented line as its current line, as long as that line fits in the 100-character window. |
| EditLaws.IndentRoundTrip | src/app/src/main/java/com/creategoodthings/markdownKeyboard/ui/MarkdownKeyboard.kt:393-410 | IndentBack after IndentForward restores the editor exactly, for every readable editor without a selection whose indented line fits in the window. |
| EditLaws.BatchBalance | src/app/src/main/java/com/creategoodthings/markdownKeyboard/ui/MarkdownKeyboard.kt:379-409 | Every key leaves the batch depth as it found it, except an indent key on an unreadable editor, which leaves exactly one batch open. |
| Strings.ThisLine | src/app/src/main/java/com/creategoodthings/markdownKeyboard/ui/MarkdownKeyboard.kt:418-420 | `getThisLine`: the last piece of `split("\n")`. No contract of its own: specified by `Strings.ThisLineSpec` together with `Strings.ThisLineAfterBreak`, which determine it uniquely. |
| Strings.Split | src/app/src/main/java/com/creategoodthings/markdownKeyboard/ui/MarkdownKeyboard.kt:419 | Kotlin's `split` on one delimiter, keeping empty pieces: there is always at least one piece. Specified further by `Strings.JoinSplit` and `Strings.SplitPiecesFree`. |
| Strings.ThisLineSpec | src/app/src/main/java/com/creategoodthings/markdownKeyboard/ui/MarkdownKeyboard.kt:418-420 | `getThisLine` returns a suffix of its input without line breaks. It is either the whole input or starts right after a line break. |
| Strings.ThisLineAfterBreak | src/app/src/main/java/com/creategoodthings/markdownKeyboard/ui/MarkdownKeyboard.kt:418-420 | A break-free tail after a line break (or after nothing) is what `getThisLine` returns. |
| Strings.ThisLineWithoutBreak | src/app/src/main/java/com/creategoodthings/markdownKeyboard/ui/MarkdownKeyboard.kt:418-420 | A text without line breaks is its own last line. |
| Strings.JoinSplit | src/app/src/main/java/com/creategoodthings/markdownKeyboard/ui/MarkdownKeyboard.kt:419 | Joining the pieces of `split` with the delimiter gives the input back. |
| Strings.SplitPiecesFree | src/app/src/main/java/com/creategoodthings/markdownKeyboard/ui/MarkdownKeyboard.kt:419 | No piece of `split` holds the delimiter. |
| Strings.ReplaceFirst | src/app/src/main/java/com/creategoodthings/markdownKeyboard/ui/MarkdownKeyboard.kt:398 | Kotlin's `replaceFirst(oldValue, newValue)`. No contract of its own: specified by `Strings.ReplaceFirstSpec`, with `Strings.ReplaceFirstEmpty` and `Strings.ReplaceFirstRemoves` for the two uses. |
| Strings.IndexOfSpec | src/app/src/main/java/com/creategoodthings/markdownKeyboard/ui/MarkdownKeyboard.kt:398 | The search used by `replaceFirst` finds an index exactly when the pattern occurs, and then the index is the first occurrence. |
| Strings.ReplaceFirstSpec | src/app/src/main/java/com/creategoodthings/markdownKeyboard/ui/MarkdownKeyboard.kt:398 | `replaceFirst` leaves a string without the target alone. Otherwise it splices the replacement in place of the first occurrence only. |
| Strings.ReplaceFirstEmpty | src/app/src/main/java/com/creategoodthings/markdownKeyboard/ui/MarkdownKeyboard.kt:398 | Replacing the first empty string puts the replacement in front of the whole string. |
| Strings.ReplaceFirstRemoves | src/app/src/main/java/com/creategoodthings/markdownKeyboard/ui/MarkdownKeyboard.kt:407 | Replacing the first target by nothing never lengthens the string. It shortens it by the target's length exactly at the first occurrence, and changes nothing when there is none. |
| Strings.ReplaceFirstLeading | src/app/src/main/java/com/creategoodthings/markdownKeyboard/ui/MarkdownKeyboard.kt:407 | Removing the first run of a pattern from a string that starts with it gives the rest. |
| Connection.TextBeforeCursor | src/app/src/main/java/com/creategoodthings/markdownKeyboard/ui/MarkdownKeyboard.kt:395 | `getTextBeforeCursor(n, 0)` is null exactly when the host refuses reads. Otherwise it is the last min(n, cursor) characters before the selection. |
| Connection.SelectedText | src/app/src/main/java/com/creategoodthings/markdownKeyboard/ui/MarkdownKeyboard.kt:380 | `getSelectedText(0)` is null exactly when reads are refused or nothing is selected. Otherwise it is the non-empty selected text. |
| Connection.GetSurroundingText | src/app/src/main/java/com/creategoodthings/markdownKeyboard/ui/MarkdownKeyboard.kt:352-356 | `getSurroundingText(2, 2, 0)` is null exactly when reads are refused. Its prefix is the text before the cursor, its middle the selection, its suffix the text after, each as far as the window reaches. |
| Connection.DeleteSurroundingText | src/app/src/main/java/com/creategoodthings/markdownKeyboard/ui/MarkdownKeyboard.kt:360 | `deleteSurroundingText(b, a)` keeps the selection. It shortens the text before it by min(b, available) from its end and the text after it by min(a, available) from its start. |
| Connection.CommitText | src/app/src/main/java/com/creategoodthings/markdownKeyboard/ui/MarkdownKeyboard.kt:382-383 | `commitText(t, pos)` replaces the selection by `t`. With pos 1 the cursor lands after `t`, with pos 0 in front of it. |
| Connection.Step | src/app/src/main/java/com/creategoodthings/markdownKeyboard/ui/MarkdownKeyboard.kt:346-415 | One call of the engine keeps the editor well-formed, never changes whether reads succeed, and adds to what the host receives exactly that call's event (none for text and batch calls). |
| Connection.Apply | src/app/src/main/java/com/creategoodthings/markdownKeyboard/ui/MarkdownKeyboard.kt:346-415 | Performing a list of calls keeps the editor well-formed. The host receives exactly the events of the event calls, in order. |
| Connection.SilentEmitsNothing | src/app/src/main/java/com/creategoodthings/markdownKeyboard/ui/MarkdownKeyboard.kt:378-410 | Calls that are all text or batch calls hand the host no events. |
| Connection.ReplaceBeforeCursor | src/app/src/main/java/com/creategoodthings/markdownKeyboard/ui/MarkdownKeyboard.kt:397-400 | Inside a batch, deleting n characters before the cursor and committing `t` replaces those characters and the selection by `t`, and closes the batch. |
| Connection.InsertPairAtCursor | src/app/src/main/java/com/creategoodthings/markdownKeyboard/ui/MarkdownKeyboard.kt:382-383 | Inside a batch, committing `t` once with pos 1 and once with pos 0 leaves the cursor between the two copies. |
| Findings.BoldSelectionDropsPrefix | src/app/src/main/java/com/creategoodthings/markdownKeyboard/ui/MarkdownKeyboard.kt:384-388 | As written, Bold on `ab ` followed by the selected `hello` leaves only `**hello**`. |
| Findings.BoldDropsAllBefore | src/app/src/main/java/com/creategoodthings/markdownKeyboard/ui/MarkdownKeyboard.kt:384-388 | As written, when the selection is at least as long as the text in front of it, Bold leaves only `**selection**` followed by the text after it. |
| Findings.BoldSelectionLosesText | src/app/src/main/java/com/creategoodthings/markdownKeyboard/ui/MarkdownKeyboard.kt:384-388 | As written, Bold on a selection with text in front of it yields less than the text plus four markers. |
| Findings.BoldCorrectedWraps | src/app/src/main/java/com/creategoodthings/markdownKeyboard/ui/MarkdownKeyboard.kt:384-388 | Corrected Bold replaces the selection by `**selection**` and keeps everything around it. |
| Findings.BoldCorrectedUnwraps | src/app/src/main/java/com/creategoodthings/markdownKeyboard/ui/MarkdownKeyboard.kt:384-388 | Cutting the two markers out of the corrected Bold's result gives the original text back. |
| Findings.BoldCorrectedWithoutSelection | src/app/src/main/java/com/creategoodthings/markdownKeyboard/ui/MarkdownKeyboard.kt:381-383 | Without a readable selection, corrected Bold is Bold as written. |
| Findings.IndentSplitsLongLine | src/app/src/main/java/com/creategoodthings/markdownKeyboard/ui/MarkdownKeyboard.kt:395-399 | As written, when the last 100 characters before the cursor hold no line break, IndentForward puts its spaces 100 characters before the cursor. On a line longer than 100 characters that is in the middle of the line. |
| Findings.LongLineUnindentable | src/app/src/main/java/com/creategoodthings/markdownKeyboard/ui/MarkdownKeyboard.kt:404-407 | As written, with nothing selected, IndentBack changes nothing when the last 100 characters before the cursor hold no space and no line break. |
| Findings.IndentRoundTripFailsOnLongLine | src/app/src/main/java/com/creategoodthings/markdownKeyboard/ui/MarkdownKeyboard.kt:393-410 | As written, IndentBack does not undo IndentForward on any line of at least 100 characters whose last 100 characters before the cursor hold no space, wherever in the text the line is. |
| Findings.LongLineStaysIndented | src/app/src/main/java/com/creategoodthings/markdownKeyboard/ui/MarkdownKeyboard.kt:393-410 | As written, on such a line IndentForward changes the editor, and IndentBack then leaves the result as it is. |
| Findings.IndentDropsSelection | src/app/src/main/java/com/creategoodthings/markdownKeyboard/ui/MarkdownKeyboard.kt:397-399 | As written, an indent key on a readable selection loses the selected text: IndentForward grows the text by four characters minus the selection, and IndentBack shrinks it by at least the selection. |
| Findings.IndentCorrectedRewrites | src/app/src/main/java/com/creategoodthings/markdownKeyboard/ui/MarkdownKeyboard.kt:393-410 | The corrected indent keys replace the whole current line by its rewrite followed by the selected text, leaving the cursor after it, in one balanced batch. |
| Findings.IndentCorrectedKeepsText | src/app/src/main/java/com/creategoodthings/markdownKeyboard/ui/MarkdownKeyboard.kt:393-401 | Corrected IndentForward changes the text only by four spaces inserted at the start of the current line, with or without a selection. |
| Findings.IndentCorrectedWithoutSelection | src/app/src/main/java/com/creategoodthings/markdownKeyboard/ui/MarkdownKeyboard.kt:393-410 | Without a readable selection, the corrected indent plan is the plan as written over a window that reaches back to the start of the text. |
| Findings.SelectedOrEmpty | src/app/src/main/java/com/creategoodthings/markdownKeyboard/ui/MarkdownKeyboard.kt:380 | `getSelectedText(0)` with null read as empty: on a readable editor this is the selected text, empty or not. |
| Findings.PerformCorrected | src/app/src/main/java/com/creategoodthings/markdownKeyboard/ui/MarkdownKeyboard.kt:341-416 | The corrected engine keeps the editor well-formed and never changes whether the host answers reads. Only Bold and the indent keys differ from `Perform`. |
| Findings.IndentCorrectedAtLineStart | src/app/src/main/java/com/creategoodthings/markdownKeyboard/ui/MarkdownKeyboard.kt:393-401 | Corrected IndentForward puts its spaces at the real start of the line, after the last line break before the cursor or at the text's start. The selected text stays after the line. |
| Findings.IndentBackCorrectedRemovesFirstRun | src/app/src/main/java/com/creategoodthings/markdownKeyboard/ui/MarkdownKeyboard.kt:402-410 | Corrected IndentBack takes the first run of four spaces out of the whole current line and keeps the selected text after it. |
| Findings.IndentCorrectedLineSeen | src/app/src/main/java/com/creategoodthings/markdownKeyboard/ui/MarkdownKeyboard.kt:395-405 | After corrected IndentForward, the current line is the old one with four spaces in front, followed by the formerly selected text when that holds no line break. |
| Findings.IndentCorrectedRoundTrip | src/app/src/main/java/com/creategoodthings/markdownKeyboard/ui/MarkdownKeyboard.kt:393-410 | With the corrections, IndentBack undoes IndentForward on every readable editor without a selection, however long the line. |
| Findings.IndentPlanWindow | src/app/src/main/java/com/creategoodthings/markdownKeyboard/ui/MarkdownKeyboard.kt:395 | The indent keys' calls depend on the window size only through the text it shows. |
| Findings.CorrectionsAreLocal | src/app/src/main/java/com/creategoodthings/markdownKeyboard/ui/MarkdownKeyboard.kt:341-416 | The corrected engine differs from the code only where the findings say. Bold differs exactly on a readable selection with text in front of it. The indent keys agree with the code unless there is a readable selection or the cursor is more than 100 characters into the text. IndentForward on a readable selection always differs. |
| Scenarios.DeleteEmptyBoldPairExample | src/app/src/main/java/com/creategoodthings/markdownKeyboard/ui/MarkdownKeyboard.kt:359-361 | With the cursor inside `ab****cd` between the two pairs, Delete leaves `abcd` with the cursor after `ab`. |
| Scenarios.DeleteStarPairExample | src/app/src/main/java/com/creategoodthings/markdownKeyboard/ui/MarkdownKeyboard.kt:362-364 | With the cursor between the stars of `a**b`, Delete leaves `ab` with the cursor after `a`. |
| Scenarios.DeleteFallbackExample | src/app/src/main/java/com/creategoodthings/markdownKeyboard/ui/MarkdownKeyboard.kt:368-369 | With the cursor between the letters of `ab`, Delete hands the host a backspace and edits nothing. |
| Scenarios.BoldEmptySelectionExample | src/app/src/main/java/com/creategoodthings/markdownKeyboard/ui/MarkdownKeyboard.kt:381-383 | With the cursor in the middle of `abcd`, Bold leaves `ab****cd` with the cursor between the two pairs. |

## Left out

- The Compose user interface: key layout, `KeyItem`, `KeyType`, and haptic or audio feedback. None of these affects what a key does to the text.
- The long-press repeat (MarkdownKeyboard.kt lines 271-281), which runs `performKeyAction` again every 60 ms for up to a minute on a background dispatcher. It changes how often, and on which thread, a key acts, not what one action does. The model describes one action; repeated actions are repeated `Perform` calls, and concurrency with other edits is not modelled.
- `MdIMEService` and the rest of the app. They only supply the connection and host the view.
- A null `currentInputConnection` is not modelled. CommitText, Delete, Enter, Bold and the indent keys would then throw on their first call on the connection. Done would still hide the keyboard, since it calls only the input method service, and Cursive, Underline and Empty make no call.
- What the host does with the raw key events and the hide request. The engine only hands them over, so they are recorded in an event log.
- The composing region, cursor-update callbacks and the host's text-length limits. Their absence is assumed.
- Each Dafny `char` stands for one UTF-16 code unit of Kotlin's `String`. Dafny's `char` cannot hold a lone surrogate, but the engine only compares characters with `'*'`, `' '` and `'\n'` and counts them, so the excluded range changes no result. Grapheme clusters get no special treatment, and neither does the engine.
- Host reads are all-or-nothing: `readable == false` models a host that answers every read with null. A host that answers some reads and refuses others is not modelled.
- Reads are taken as plain strings, as `BaseInputConnection` returns them for flags 0. The test `prefix == "**" && suffix == "**"` (MarkdownKeyboard.kt line 359) compares pieces of the returned `CharSequence` with a `String`. A host that returned styled text would make it fail, and Delete would then never remove a bold pair, only a star pair or a single character. That case is not modelled.
- EditLaws.IndentRoundTrip: is proved only while the indented line fits in the window, for a readable editor with no selection. Beyond the window it can fail (`Findings.IndentRoundTripFailsOnLongLine`), a selection is lost, and on an unreadable editor two batches stay open.
- Keyboard.Perform: models the code as written, including the three findings below. The corrected behaviour is `Findings.PerformCorrected`.

## Findings

| source | as written | input that shows it | evidently intended | confidence | as-written member | corrected member |
|---|---|---|---|---|---|---|
| src/app/src/main/java/com/creategoodthings/markdownKeyboard/ui/MarkdownKeyboard.kt:385 | Bold on a selection calls `deleteSurroundingText(selectedText.length, 0)`. That call removes characters BEFORE the selection, never the selection. `commitText` then replaces the selection. | text `ab hello` with `hello` selected: the result is `**hello**`, and `ab ` is lost | `ab **hello**`: the selection wrapped in markers, nothing else changed | not executed | Findings.BoldSelectionDropsPrefix | Findings.BoldCorrectedWraps |
| src/app/src/main/java/com/creategoodthings/markdownKeyboard/ui/MarkdownKeyboard.kt:395 | The indent keys read only `getTextBeforeCursor(100, 0)`. On a longer line, the "current line" is its last 100 characters. | a line of 101 `a`s with the cursor at its end: IndentForward inserts the spaces after the first `a`, and IndentBack then leaves the text unchanged | the four spaces go at the start of the line, and IndentBack removes them again | not executed | Findings.IndentRoundTripFailsOnLongLine | Findings.IndentCorrectedRoundTrip |
| src/app/src/main/java/com/creategoodthings/markdownKeyboard/ui/MarkdownKeyboard.kt:399 | The indent keys delete the current line in front of the selection and then call `commitText(newLine, 1)`, which replaces the selection by the new line (the same at line 408). | text `ab hello` with `hello` selected: IndentForward leaves `    ab `, and `hello` is lost | `    ab hello`: four spaces at the start of the line, the rest of the text unchanged | not executed | Findings.IndentDropsSelection | Findings.IndentCorrectedKeepsText |

=== FILE: connection.dfy ===
/** The host's input connection, as far as the edit engine uses it.

    The engine talks to the focused text field only through Android's
    `InputConnection`. This module states the semantics the engine relies
    on as pure functions over an immutable `Editor` record, following the
    documented behaviour of the platform's `BaseInputConnection`:

    - reads (`getTextBeforeCursor`, `getSelectedText`, `getSurroundingText`)
      look around the selection `[selStart, selEnd)`; a collapsed selection is
      the cursor. A host may answer any read with `null`: `readable == false`
      models a host that does so;
    - `deleteSurroundingText(b, a)` removes up to `b` characters before the
      selection and up to `a` after it, never the selection itself;
    - `commitText(t, pos)` replaces the selection by `t` and collapses the
      selection to a cursor: `pos == 1` puts it right after `t`, `pos == 0`
      at the start of `t` (in general `pos > 0` counts from the end of `t`
      minus one, `pos <= 0` from its start, clamped to the text);
    - `beginBatchEdit` / `endBatchEdit` move a nesting counter;
    - `sendKeyEvent` and `requestHideSelf` are opaque: they are recorded in
      an event log, and what the host then does with them is not modelled. */
module Connection {
  import opened Optional
  import opened Strings

  datatype KeyCode = KeyDel | KeyEnter

  /** What the engine hands to the host without editing text itself. */
  datatype HostEvent = KeyDown(code: KeyCode) | HideSelf

  /** The text field as seen through the connection. */
  datatype Editor = Editor(
    text: string,
    selStart: nat,
    selEnd: nat,
    readable: bool,
    batchDepth: nat,
    events: seq<HostEvent>)
  {
    predicate Valid() {
      selStart <= selEnd <= |text|
    }

    predicate HasSelection() {
      selStart < selEnd
    }

    /** The text before the selection, inside it, and after it. */
    function Before(): string
      requires Valid()
    {
      text[..selStart]
    }

    function Selected(): string
      requires Valid()
    {
      text[selStart..selEnd]
    }

    function After(): string
      requires Valid()
    {
      text[selEnd..]
    }
  }

  /** The three parts always make up the whole text. */
  lemma Parts(e: Editor)
    requires e.Valid()
    ensures e.text == e.Before() + e.Selected() + e.After()
  {
  }

  /** The editor whose text is `before + selected + after`, with `selected`
      selected; every other field taken from `e`. */
  function Assemble(e: Editor, before: string, selected: string, after: string): (r: Editor)
    ensures r.Valid() && r.text == before + selected + after
    ensures r.Before() == before && r.Selected() == selected && r.After() == after
    ensures r.readable == e.readable && r.batchDepth == e.batchDepth && r.events == e.events
  {
    var text := before + selected + after;
    assert text[..|before|] == before;
    assert text[|before|..|before| + |selected|] == selected;
    assert text[|before| + |selected|..] == after;
    e.(text := text, selStart := |before|, selEnd := |before| + |selected|)
  }

  /** Two valid editors with the same parts and bookkeeping are the same. */
  lemma SameParts(e: Editor, f: Editor)
    requires e.Valid() && f.Valid()
    requires e.Before() == f.Before() && e.Selected() == f.Selected() && e.After() == f.After()
    requires e.readable == f.readable && e.batchDepth == f.batchDepth && e.events == f.events
    ensures e == f
  {
    Parts(e);
    Parts(f);
  }

  function Min(a: int, b: int): int {
    if a <= b then a else b
  }

  /** `getTextBeforeCursor(n, 0)`: the last `n` characters before the
      selection, or fewer at the start of the text. */
  function TextBeforeCursor(e: Editor, n: nat): (r: Option<string>)
    requires e.Valid()
    ensures r.Some? <==> e.readable
    ensures r.Some? ==> |r.value| == Min(n, e.selStart) && r.value == e.text[e.selStart - |r.value|..e.selStart]
  {
    if e.readable then Some(e.text[e.selStart - Min(n, e.selStart)..e.selStart]) else None
  }

  /** `getTextAfterCursor(n, 0)`: the first `n` characters after the
      selection, or fewer at the end of the text. */
  function TextAfterCursor(e: Editor, n: nat): (r: Option<string>)
    requires e.Valid()
    ensures r.Some? <==> e.readable
    ensures r.Some? ==> |r.value| == Min(n, |e.text| - e.selEnd) && r.value == e.text[e.selEnd..e.selEnd + |r.value|]
  {
    if e.readable then Some(e.text[e.selEnd..e.selEnd + Min(n, |e.text| - e.selEnd)]) else None
  }

  /** `getSelectedText(0)`: the selected text, or `null` when nothing is
      selected. */
  function SelectedText(e: Editor): (r: Option<string>)
    requires e.Valid()
    ensures r.Some? <==> e.readable && e.HasSelection()
    ensures r.Some? ==> r.value == e.Selected() && |r.value| > 0
  {
    if e.readable && e.HasSelection() then Some(e.text[e.selStart..e.selEnd]) else None
  }

  /** The answer of `getSurroundingText`: a piece of text and the offsets of
      the selection inside it. */
  datatype SurroundingText = SurroundingText(text: string, selectionStart: nat, selectionEnd: nat)
  {
    predicate Valid() {
      selectionStart <= selectionEnd <= |text|
    }
  }

  /** `getSurroundingText(b, a, 0)`: up to `b` characters before the
      selection, the selection, and up to `a` characters after it, in one
      piece of text. */
  function GetSurroundingText(e: Editor, b: nat, a: nat): (r: Option<SurroundingText>)
    requires e.Valid()
    ensures r.Some? <==> e.readable
    ensures r.Some? ==> r.value.Valid()
    ensures r.Some? ==> r.value.text[..r.value.selectionStart] == TextBeforeCursor(e, b).value
    ensures r.Some? ==> r.value.text[r.value.selectionStart..r.value.selectionEnd] == e.Selected()
    ensures r.Some? ==> r.value.text[r.value.selectionEnd..] == TextAfterCursor(e, a).value
  {
    match TextBeforeCursor(e, b)
    case None => None
    case Some(before) =>
      match TextAfterCursor(e, a)
      case None => None
      case Some(after) =>
        var selected := if e.HasSelection() then e.Selected() else "";
        var text := before + selected + after;
        assert text[..|before|] == before;
        assert text[|before|..|before| + |selected|] == selected;
        assert text[|before| + |selected|..] == after;
        Some(SurroundingText(text, |before|, |before| + |selected|))
  }

  /** `deleteSurroundingText(before, after)`: the selection survives; the
      text before it loses up to `before` characters at its end, the text
      after it up to `after` characters at its start. */
  function DeleteSurroundingText(e: Editor, before: nat, after: nat): (r: Editor)
    requires e.Valid()
    ensures r.Valid()
    ensures r.Selected() == e.Selected()
    ensures IsPrefix(r.Before(), e.Before()) && |r.Before()| == |e.Before()| - Min(before, |e.Before()|)
    ensures IsSuffix(r.After(), e.After()) && |r.After()| == |e.After()| - Min(after, |e.After()|)
    ensures r.readable == e.readable && r.batchDepth == e.batchDepth && r.events == e.events
  {
    var b := Min(before, e.selStart);
    var a := Min(after, |e.text| - e.selEnd);
    Assemble(e, e.text[..e.selStart - b], e.Selected(), e.text[e.selEnd + a..])
  }

  /** Where `commitText(t, pos)` leaves the cursor when `t` lands at `start`
      in a text of `len` characters. */
  function NewCursor(start: nat, t: string, pos: int, len: nat): (c: nat)
    requires start + |t| <= len
    ensures c <= len
    ensures pos == 1 ==> c == start + |t|
    ensures pos == 0 ==> c == start
  {
    var raw := if pos > 0 then start + |t| + pos - 1 else start + pos;
    if raw < 0 then 0 else if raw > len then len else raw
  }

  /** `commitText(t, pos)`: `t` replaces the selection, and the selection
      collapses to a cursor placed according to `pos`. */
  function CommitText(e: Editor, t: string, pos: int): (r: Editor)
    requires e.Valid()
    ensures r.Valid() && !r.HasSelection()
    ensures r.text == e.Before() + t + e.After()
    ensures pos == 1 ==> r.selStart == |e.Before()| + |t|
    ensures pos == 0 ==> r.selStart == |e.Before()|
    ensures r.readable == e.readable && r.batchDepth == e.batchDepth && r.events == e.events
  {
    var text := e.text[..e.selStart] + t + e.text[e.selEnd..];
    var c := NewCursor(e.selStart, t, pos, |text|);
    e.(text := text, selStart := c, selEnd := c)
  }

  /** One call the engine makes, on the connection or on the input method
      service (`requestHideSelf`). */
  datatype Op =
    | BeginBatchEdit
    | EndBatchEdit
    | DeleteSurrounding(before: nat, after: nat)
    | Commit(text: string, newCursorPosition: int)
    | SendKeyDown(code: KeyCode)
    | RequestHideSelf

  function Step(op: Op, e: Editor): (r: Editor)
    requires e.Valid()
    ensures r.Valid() && r.readable == e.readable
    ensures r.events == e.events + EventOf(op)
  {
    match op
    case BeginBatchEdit => e.(batchDepth := e.batchDepth + 1)
    case EndBatchEdit => e.(batchDepth := if e.batchDepth > 0 then e.batchDepth - 1 else 0)
    case DeleteSurrounding(b, a) => DeleteSurroundingText(e, b, a)
    case Commit(t, pos) => CommitText(e, t, pos)
    case SendKeyDown(k) => e.(events := e.events + [KeyDown(k)])
    case RequestHideSelf => e.(events := e.events + [HideSelf])
  }

  /** The host event a call hands over, if any. */
  function EventOf(op: Op): seq<HostEvent> {
    match op
    case SendKeyDown(k) => [KeyDown(k)]
    case RequestHideSelf => [HideSelf]
    case _ => []
  }

  /** None of the calls hands the host an event. */
  predicate Silent(ops: seq<Op>) {
    forall i :: 0 <= i < |ops| ==> !ops[i].SendKeyDown? && !ops[i].RequestHideSelf?
  }

  /** The host events among the calls, in order. */
  function Emitted(ops: seq<Op>): seq<HostEvent>
    decreases |ops|
  {
    if |ops| == 0 then [] else EventOf(ops[0]) + Emitted(ops[1..])
  }

  /** Calls that hand over no event hand over nothing in total. */
  lemma {:induction false} SilentEmitsNothing(ops: seq<Op>)
    requires Silent(ops)
    ensures Emitted(ops) == []
    decreases |ops|
  {
    if |ops| > 0 {
      assert Silent(ops[1..]);
      SilentEmitsNothing(ops[1..]);
    }
  }

  /** A single call hands over its own event. */
  lemma EmittedSingle(op: Op)
    ensures Emitted([op]) == EventOf(op)
  {
    assert [op][1..] == [];
  }

  /** Performs the calls in order. Text edits leave the event log alone,
      and each event call appends its event. */
  function Apply(ops: seq<Op>, e: Editor): (r: Editor)
    requires e.Valid()
    ensures r.Valid() && r.readable == e.readable
    ensures r.events == e.events + Emitted(ops)
    decreases |ops|
  {
    if |ops| == 0 then e
    else
      var f := Step(ops[0], e);
      assert Emitted(ops) == EventOf(ops[0]) + Emitted(ops[1..]);
      Apply(ops[1..], f)
  }

  /** Performing one, two, three or four calls in a row. */
  lemma ApplyOne(a: Op, e: Editor)
    requires e.Valid()
    ensures Apply([a], e) == Step(a, e)
  {
    assert [a][1..] == [];
  }

  lemma ApplyTwo(a: Op, b: Op, e: Editor)
    requires e.Valid()
    ensures Apply([a, b], e) == Step(b, Step(a, e))
  {
    assert [a, b][1..] == [b];
    ApplyOne(b, Step(a, e));
  }

  lemma ApplyThree(a: Op, b: Op, c: Op, e: Editor)
    requires e.Valid()
    ensures Apply([a, b, c], e) == Step(c, Step(b, Step(a, e)))
  {
    assert [a, b, c][1..] == [b, c];
    ApplyTwo(b, c, Step(a, e));
  }

  lemma ApplyFour(a: Op, b: Op, c: Op, d: Op, e: Editor)
    requires e.Valid()
    ensures Apply([a, b, c, d], e) == Step(d, Step(c, Step(b, Step(a, e))))
  {
    assert [a, b, c, d][1..] == [b, c, d];
    ApplyThree(b, c, d, Step(a, e));
  }

  /** Inside one batch, deleting `n` characters before the selection and
      committing `t` with the cursor after it replaces those characters and
      the selection by `t`. */
  lemma ReplaceBeforeCursor(e: Editor, n: nat, t: string)
    requires e.Valid() && n <= e.selStart
    ensures Step(EndBatchEdit, Step(Commit(t, 1), Step(DeleteSurrounding(n, 0), Step(BeginBatchEdit, e))))
      == Assemble(e, e.text[..e.selStart - n] + t, "", e.After())
  {
    var e1 := Step(BeginBatchEdit, e);
    var e2 := Step(DeleteSurrounding(n, 0), e1);
    assert e2.Before() == e.text[..e.selStart - n] && e2.After() == e.After() by {
      assert e2 == DeleteSurroundingText(e1, n, 0);
      assert e1.Before() == e.Before() && e1.After() == e.After();
    }
    var e3 := Step(Commit(t, 1), e2);
    var head := e2.Before() + t;
    assert e3.text == head + e2.After() && e3.selStart == e3.selEnd == |head|;
    var r := Step(EndBatchEdit, e3);
    assert r.Before() == head by {
      assert r.text[..|head|] == head;
    }
    assert r.After() == e.After() by {
      assert r.text[|head|..] == e2.After();
    }
    SameParts(r, Assemble(e, head, "", e.After()));
  }

  /** Inside one batch, committing `t` twice, the second time with the
      cursor in front of it, leaves the cursor between the two copies. */
  lemma InsertPairAtCursor(e: Editor, t: string)
    requires e.Valid()
    ensures Step(EndBatchEdit, Step(Commit(t, 0), Step(Commit(t, 1), Step(BeginBatchEdit, e))))
      == Assemble(e, e.Before() + t, "", t + e.After())
  {
    var e1 := Step(BeginBatchEdit, e);
    var e2 := Step(Commit(t, 1), e1);
    var head := e.Before() + t;
    assert e2.text == head + e.After() && e2.selStart == e2.selEnd == |head|;
    assert e2.Before() == head && e2.After() == e.After() by {
      assert e2.text[..|head|] == head;
      assert e2.text[|head|..] == e.After();
    }
    var e3 := Step(Commit(t, 0), e2);
    assert e3.text == head + (t + e.After()) && e3.selStart == e3.selEnd == |head|;
    var r := Step(EndBatchEdit, e3);
    assert r.Before() == head by {
      assert r.text[..|head|] == head;
    }
    assert r.After() == t + e.After() by {
      assert r.text[|head|..] == t + e.After();
    }
    SameParts(r, Assemble(e, head, "", t + e.After()));
  }

  /** Inside one batch, committing `t` with the cursor after it replaces the
      selection by `t`. */
  lemma CommitInBatch(e: Editor, t: string)
    requires e.Valid()
    ensures Step(EndBatchEdit, Step(Commit(t, 1), Step(BeginBatchEdit, e)))
      == Assemble(e, e.Before() + t, "", e.After())
  {
    var e1 := Step(BeginBatchEdit, e);
    var e2 := Step(Commit(t, 1), e1);
    var head := e.Before() + t;
    assert e2.text == head + e.After() && e2.selStart == e2.selEnd == |head|;
    var r := Step(EndBatchEdit, e2);
    assert r.Before() == head by {
      assert r.text[..|head|] == head;
    }
    assert r.After() == e.After() by {
      assert r.text[|head|..] == e.After();
    }
    SameParts(r, Assemble(e, head, "", e.After()));
  }
}

=== FILE: edit_laws.dfy ===
/** What each key does to the editor: the laws of `performKeyAction`. */
module EditLaws {
  import opened Optional
  import opened Strings
  import opened Connection
  import opened Keyboard

  /** The current line as the indent keys see it: the text after the last
      line break among the last `window` characters before the cursor. */
  function CurrentLine(e: Editor, window: nat): (line: string)
    requires e.Valid() && e.readable
    ensures |line| <= window && |line| <= e.selStart
  {
    var w := TextBeforeCursor(e, window).value;
    ThisLineSpec(w);
    ThisLine(w)
  }

  /** The current line ends at the cursor, holds no line break and is no
      longer than the window. When it is shorter than the window it is the
      whole line: it starts at the start of the text or right after a line
      break. */
  lemma CurrentLineSpec(e: Editor, window: nat)
    requires e.Valid() && e.readable
    ensures var line := CurrentLine(e, window);
      && '\n' !in line
      && IsSuffix(line, e.Before()) && |line| <= window
      && (|line| < window ==> e.selStart == |line| || e.text[e.selStart - |line| - 1] == '\n')
  {
    var w := TextBeforeCursor(e, window).value;
    var line := ThisLine(w);
    ThisLineSpec(w);
    assert IsSuffix(w, e.Before()) by {
      assert e.Before()[|e.Before()| - |w|..] == w;
    }
    SuffixOfSuffix(line, w, e.Before());
    assert line != w ==> w[|w| - |line| - 1] == e.text[e.selStart - |line| - 1];
  }

  // ---------------------------------------------------------------------
  // CommitText, Enter, Done and the keys without an effect

  /** A character key commits its text in place of the selection and leaves
      the cursor after it. */
  lemma CommitTextInserts(e: Editor, t: string)
    requires e.Valid()
    ensures var r := Perform(CommitText(t), e);
      && r.text == e.Before() + t + e.After()
      && r.selStart == r.selEnd == e.selStart + |t|
      && r.batchDepth == e.batchDepth && r.events == e.events
  {
    ApplyOne(Commit(t, 1), e);
  }

  /** Enter and Done do not touch the text: they only hand the host a raw
      Enter key press or a request to hide the keyboard. */
  lemma EnterAndDoneAreHostEvents(e: Editor)
    requires e.Valid()
    ensures Perform(Enter, e) == e.(events := e.events + [KeyDown(KeyEnter)])
    ensures Perform(Done, e) == e.(events := e.events + [HideSelf])
  {
    ApplyOne(SendKeyDown(KeyEnter), e);
    ApplyOne(RequestHideSelf, e);
  }

  /** Cursive, Underline and Empty keys change nothing. */
  lemma IdleKeys(action: KeyAction, e: Editor)
    requires e.Valid()
    requires action.CursiveSelection? || action.UnderlineSelection? || action.Empty?
    ensures Perform(action, e) == e
  {
  }

  // ---------------------------------------------------------------------
  // Delete

  /** The selection sits between `**` and `**`. */
  predicate BoldPairAround(e: Editor)
    requires e.Valid()
  {
    && 2 <= e.selStart && e.selEnd + 2 <= |e.text|
    && e.text[e.selStart - 2..e.selStart] == Bold
    && e.text[e.selEnd..e.selEnd + 2] == Bold
  }

  /** The selection sits between `*` and `*`. */
  predicate StarPairAround(e: Editor)
    requires e.Valid()
  {
    0 < e.selStart && e.selEnd < |e.text| && e.text[e.selStart - 1] == '*' && e.text[e.selEnd] == '*'
  }

  /** `e` with `n` characters removed on each side of the selection. */
  function Trimmed(e: Editor, n: nat): Editor
    requires e.Valid() && n <= e.selStart && e.selEnd + n <= |e.text|
  {
    Assemble(e, e.text[..e.selStart - n], e.Selected(), e.text[e.selEnd + n..])
  }

  /** The two characters before and after the selection, as far as they
      exist, are `**` and `**` exactly when the selection sits between bold
      markers. */
  lemma BoldPairInWindow(e: Editor, prefix: string, suffix: string)
    requires e.Valid()
    requires prefix == e.text[e.selStart - Min(2, e.selStart)..e.selStart]
    requires suffix == e.text[e.selEnd..e.selEnd + Min(2, |e.text| - e.selEnd)]
    ensures (prefix == Bold && suffix == Bold) <==> BoldPairAround(e)
  {
  }

  /** The last character before and the first after the selection are
      stars exactly when the selection sits between stars. */
  lemma StarPairInWindow(e: Editor, prefix: string, suffix: string)
    requires e.Valid()
    requires prefix == e.text[e.selStart - Min(2, e.selStart)..e.selStart]
    requires suffix == e.text[e.selEnd..e.selEnd + Min(2, |e.text| - e.selEnd)]
    ensures (|prefix| > 0 && |suffix| > 0 && prefix[|prefix| - 1] == '*' && suffix[0] == '*') <==> StarPairAround(e)
  {
    assert |prefix| > 0 ==> prefix[|prefix| - 1] == e.text[e.selStart - 1];
    assert |suffix| > 0 ==> suffix[0] == e.text[e.selEnd];
  }

  /** The Delete key's decision, read off the text itself: the two
      characters around the selection on each side, as far as they exist. */
  lemma DeletePlanCases(e: Editor)
    requires e.Valid()
    ensures DeletePlan(e) ==
      if e.readable && BoldPairAround(e) then [DeleteSurrounding(2, 2)]
      else if e.readable && StarPairAround(e) then [DeleteSurrounding(1, 1)]
      else [SendKeyDown(KeyDel)]
  {
    if e.readable {
      var st := GetSurroundingText(e, DeleteWindow, DeleteWindow).value;
      var prefix := st.text[..st.selectionStart];
      var suffix := st.text[st.selectionEnd..];
      BoldPairInWindow(e, prefix, suffix);
      StarPairInWindow(e, prefix, suffix);
    }
  }

  /** Removing `n` characters on each side is one `deleteSurroundingText`. */
  lemma TrimmedIsDelete(e: Editor, n: nat)
    requires e.Valid() && n <= e.selStart && e.selEnd + n <= |e.text|
    ensures Step(DeleteSurrounding(n, n), e) == Trimmed(e, n)
  {
    var r := Step(DeleteSurrounding(n, n), e);
    assert r.Before() == e.text[..e.selStart - n];
    assert r.After() == e.text[e.selEnd + n..];
    SameParts(r, Trimmed(e, n));
  }

  /** Delete between an empty `**…**` pair removes both markers. */
  lemma DeleteCollapsesBoldPair(e: Editor)
    requires e.Valid() && e.readable
    requires BoldPairAround(e)
    ensures Plan(Delete, e) == [DeleteSurrounding(2, 2)]
    ensures Perform(Delete, e) == Trimmed(e, 2)
  {
    DeletePlanCases(e);
    ApplyOne(DeleteSurrounding(2, 2), e);
    TrimmedIsDelete(e, 2);
  }

  /** Otherwise, Delete between `*` and `*` removes one character on each
      side. */
  lemma DeleteCollapsesStarPair(e: Editor)
    requires e.Valid() && e.readable
    requires StarPairAround(e) && !BoldPairAround(e)
    ensures Plan(Delete, e) == [DeleteSurrounding(1, 1)]
    ensures Perform(Delete, e) == Trimmed(e, 1)
  {
    DeletePlanCases(e);
    ApplyOne(DeleteSurrounding(1, 1), e);
    TrimmedIsDelete(e, 1);
  }

  /** In every other case (nothing readable, the selection at an end of the
      text, or no star on one side) Delete falls back to one raw backspace
      and edits nothing itself; and it falls back only then. */
  lemma DeleteFallsBack(e: Editor)
    requires e.Valid()
    ensures Plan(Delete, e) == [SendKeyDown(KeyDel)] <==> !(e.readable && StarPairAround(e))
    ensures !(e.readable && StarPairAround(e)) ==>
      Perform(Delete, e) == e.(events := e.events + [KeyDown(KeyDel)])
  {
    DeletePlanCases(e);
    ApplyOne(SendKeyDown(KeyDel), e);
    assert BoldPairAround(e) ==> StarPairAround(e) by {
      if BoldPairAround(e) {
        assert e.text[e.selStart - 1] == e.text[e.selStart - 2..e.selStart][1];
        assert e.text[e.selEnd] == e.text[e.selEnd..e.selEnd + 2][0];
      }
    }
  }

  /** Trimming keeps the selection, shortens both sides by the same amount
      from the selection outwards, and touches nothing else. */
  lemma TrimmedShape(e: Editor, n: nat)
    requires e.Valid() && n <= e.selStart && e.selEnd + n <= |e.text|
    ensures var r := Trimmed(e, n);
      && r.Selected() == e.Selected()
      && IsPrefix(r.Before(), e.Before()) && IsSuffix(r.After(), e.After())
      && |e.Before()| - |r.Before()| == |e.After()| - |r.After()| == n
      && |r.text| == |e.text| - 2 * n
      && r.batchDepth == e.batchDepth && r.events == e.events
  {
    var r := Trimmed(e, n);
    assert e.Before()[..|r.Before()|] == r.Before();
    assert e.After()[|e.After()| - |r.After()|..] == r.After();
    Parts(r);
    Parts(e);
  }

  /** Delete never removes more than two characters on either side, always
      the same number on both sides, never the selection, and removes none
      exactly when it sends the raw backspace instead. */
  lemma DeleteNeverOverreaches(e: Editor)
    requires e.Valid()
    ensures var r := Perform(Delete, e);
      && r.Selected() == e.Selected()
      && IsPrefix(r.Before(), e.Before()) && IsSuffix(r.After(), e.After())
      && |e.Before()| - |r.Before()| == |e.After()| - |r.After()| <= 2
      && (r.text == e.text <==> r.events == e.events + [KeyDown(KeyDel)])
      && r.batchDepth == e.batchDepth
  {
    var r := Perform(Delete, e);
    DeleteFallsBack(e);
    if e.readable && BoldPairAround(e) {
      DeleteCollapsesBoldPair(e);
      TrimmedShape(e, 2);
    } else if e.readable && StarPairAround(e) {
      DeleteCollapsesStarPair(e);
      TrimmedShape(e, 1);
    } else {
      assert r.text == e.text && r.selStart == e.selStart && r.selEnd == e.selEnd;
    }
  }

  // ---------------------------------------------------------------------
  // BoldSelection

  /** Without a readable selection, Bold commits `****` in place of the
      selection and leaves the cursor between the two pairs, inside one
      batch. */
  lemma BoldInsertsEmptyPair(e: Editor)
    requires e.Valid()
    requires !e.readable || !e.HasSelection()
    ensures Plan(BoldSelection, e) == [BeginBatchEdit, Commit(Bold, 1), Commit(Bold, 0), EndBatchEdit]
    ensures Perform(BoldSelection, e) == Assemble(e, e.Before() + Bold, "", Bold + e.After())
  {
    ApplyFour(BeginBatchEdit, Commit(Bold, 1), Commit(Bold, 0), EndBatchEdit, e);
    InsertPairAtCursor(e, Bold);
  }

  /** With a selection, Bold deletes as many characters as are selected in
      front of the selection and commits the selection wrapped in `**`,
      leaving the cursor after the closing marker, inside one batch. */
  lemma BoldWrapsSelection(e: Editor)
    requires e.Valid() && e.readable && e.HasSelection()
    ensures Plan(BoldSelection, e) ==
      [BeginBatchEdit, DeleteSurrounding(|e.Selected()|, 0), Commit(Bold + e.Selected() + Bold, 1), EndBatchEdit]
    ensures var kept := e.selStart - Min(|e.Selected()|, e.selStart);
      Perform(BoldSelection, e) == Assemble(e, e.text[..kept] + (Bold + e.Selected() + Bold), "", e.After())
  {
    BoldWrapEffect(e, Plan(BoldSelection, e));
  }

  /** The calls Bold makes on a selection delete in front of it and commit
      the wrapped selection in its place. */
  lemma BoldWrapEffect(e: Editor, ops: seq<Op>)
    requires e.Valid() && e.readable && e.HasSelection()
    requires ops == [BeginBatchEdit, DeleteSurrounding(|e.Selected()|, 0), Commit(Bold + e.Selected() + Bold, 1), EndBatchEdit]
    ensures var kept := e.selStart - Min(|e.Selected()|, e.selStart);
      Apply(ops, e) == Assemble(e, e.text[..kept] + (Bold + e.Selected() + Bold), "", e.After())
  {
    var sel := e.Selected();
    var n := Min(|sel|, e.selStart);
    ApplyFour(BeginBatchEdit, DeleteSurrounding(|sel|, 0), Commit(Bold + sel + Bold, 1), EndBatchEdit, e);
    var e1 := Step(BeginBatchEdit, e);
    assert Step(DeleteSurrounding(|sel|, 0), e1) == Step(DeleteSurrounding(n, 0), e1);
    ReplaceBeforeCursor(e, n, Bold + sel + Bold);
  }

  // ---------------------------------------------------------------------
  // IndentForward and IndentBack

  /** Indent keys on an unreadable editor edit nothing but leave a batch
      open: the early return skips `endBatchEdit`. */
  lemma IndentUnreadableLeavesBatchOpen(action: KeyAction, e: Editor)
    requires e.Valid() && !e.readable
    requires action.IndentForward? || action.IndentBack?
    ensures Perform(action, e) == e.(batchDepth := e.batchDepth + 1)
  {
    ApplyOne(BeginBatchEdit, e);
  }

  /** The indent keys replace the current line in front of the cursor by
      its rewrite `newLine` and leave the cursor after it, in one batch;
      the text after the cursor stays, and the selection, if any, is
      replaced too. */
  lemma IndentRewrites(e: Editor, window: nat, target: string, replacement: string)
    requires e.Valid() && e.readable
    ensures var line := CurrentLine(e, window);
      var newLine := ReplaceFirst(line, target, replacement);
      Apply(IndentPlan(e, window, target, replacement), e)
        == Assemble(e, e.text[..e.selStart - |line|] + newLine, "", e.After())
  {
    var line := CurrentLine(e, window);
    var newLine := ReplaceFirst(line, target, replacement);
    CurrentLineSpec(e, window);
    assert IndentPlan(e, window, target, replacement)
      == [BeginBatchEdit, DeleteSurrounding(|line|, 0), Commit(newLine, 1), EndBatchEdit];
    ApplyFour(BeginBatchEdit, DeleteSurrounding(|line|, 0), Commit(newLine, 1), EndBatchEdit, e);
    ReplaceBeforeCursor(e, |line|, newLine);
  }

  /** Both indent keys run the indent plan over a 100-character window. */
  lemma IndentKeysUsePlan(e: Editor)
    requires e.Valid()
    ensures Perform(IndentForward, e) == Apply(IndentPlan(e, IndentWindow, "", Indent), e)
    ensures Perform(IndentBack, e) == Apply(IndentPlan(e, IndentWindow, Indent, ""), e)
  {
  }

  /** IndentForward puts four spaces in front of the current line; the text
      before the line and after the cursor stays as it was. */
  lemma IndentForwardRewritesLine(e: Editor)
    requires e.Valid() && e.readable
    ensures var line := CurrentLine(e, IndentWindow);
      Perform(IndentForward, e) == Assemble(e, e.text[..e.selStart - |line|] + (Indent + line), "", e.After())
  {
    IndentKeysUsePlan(e);
    IndentForwardPlanRewrites(e);
  }

  /** The calls IndentForward makes put four spaces in front of the current
      line. */
  lemma IndentForwardPlanRewrites(e: Editor)
    requires e.Valid() && e.readable
    ensures var line := CurrentLine(e, IndentWindow);
      Apply(IndentPlan(e, IndentWindow, "", Indent), e)
        == Assemble(e, e.text[..e.selStart - |line|] + (Indent + line), "", e.After())
  {
    IndentRewrites(e, IndentWindow, "", Indent);
    ReplaceFirstEmpty(CurrentLine(e, IndentWindow), Indent);
  }

  /** At the start of the text or right after a line break the current
      line is empty. */
  lemma CurrentLineEmpty(e: Editor, window: nat)
    requires e.Valid() && e.readable
    requires e.selStart == 0 || e.text[e.selStart - 1] == '\n'
    ensures CurrentLine(e, window) == ""
  {
    var w := TextBeforeCursor(e, window).value;
    assert |w| == 0 || w[|w| - 1] == e.text[e.selStart - 1];
    ThisLineAfterBreak(w, "");
    assert w + "" == w;
  }

  /** On an empty line (cursor at the start of the text or right after a
      line break) IndentForward inserts four spaces at the cursor. */
  lemma IndentForwardEmptyLine(e: Editor)
    requires e.Valid() && e.readable && !e.HasSelection()
    requires e.selStart == 0 || e.text[e.selStart - 1] == '\n'
    ensures Perform(IndentForward, e) == Assemble(e, e.Before() + Indent, "", e.After())
  {
    CurrentLineEmpty(e, IndentWindow);
    IndentForwardRewritesLine(e);
    assert e.text[..e.selStart - 0] + (Indent + "") == e.Before() + Indent;
  }

  /** IndentBack replaces the current line by the line with its first run
      of four spaces taken out, wherever in the line that run is (see
      `ReplaceFirstRemoves`: the line never grows). */
  lemma IndentBackRemovesFirstRun(e: Editor)
    requires e.Valid() && e.readable
    ensures var line := CurrentLine(e, IndentWindow);
      var newLine := ReplaceFirst(line, Indent, "");
      Perform(IndentBack, e) == Assemble(e, e.text[..e.selStart - |line|] + newLine, "", e.After())
  {
    IndentKeysUsePlan(e);
    IndentRewrites(e, IndentWindow, Indent, "");
  }

  /** The text in front of the cursor ends in any of its suffixes. */
  lemma BeforeEndsInLine(e: Editor, line: string)
    requires e.Valid() && IsSuffix(line, e.Before())
    ensures e.Before() == e.text[..e.selStart - |line|] + line
  {
    assert e.text[e.selStart - |line|..e.selStart] == line;
    assert e.Before() == e.text[..e.selStart - |line|] + e.text[e.selStart - |line|..e.selStart];
  }

  /** IndentBack on a line without four spaces in a row changes nothing. */
  lemma IndentBackWithoutRun(e: Editor)
    requires e.Valid() && e.readable && !e.HasSelection()
    requires forall j: nat :: !OccursAt(CurrentLine(e, IndentWindow), Indent, j)
    ensures Perform(IndentBack, e) == e
  {
    IndentBackRemovesFirstRun(e);
    LineWithoutRunKept(e, Perform(IndentBack, e));
  }

  /** Rewriting a current line that holds no run of four spaces, with
      nothing selected, gives back the same editor. */
  lemma LineWithoutRunKept(e: Editor, f: Editor)
    requires e.Valid() && e.readable && !e.HasSelection()
    requires forall j: nat :: !OccursAt(CurrentLine(e, IndentWindow), Indent, j)
    requires var line := CurrentLine(e, IndentWindow);
      f == Assemble(e, e.text[..e.selStart - |line|] + ReplaceFirst(line, Indent, ""), "", e.After())
    ensures f == e
  {
    var line := CurrentLine(e, IndentWindow);
    CurrentLineSpec(e, IndentWindow);
    ReplaceFirstRemoves(line, Indent);
    BeforeEndsInLine(e, line);
    SameParts(f, e);
  }

  /** A line that starts a fresh line and fits in the window is what the
      window shows as the current line. */
  lemma WholeLineInWindow(e: Editor, window: nat, head: string, line: string)
    requires e.Valid() && e.readable
    requires e.Before() == head + line
    requires |head| == 0 || head[|head| - 1] == '\n'
    requires '\n' !in line && |line| <= window
    ensures CurrentLine(e, window) == line
  {
    var w := TextBeforeCursor(e, window).value;
    var cut := |e.Before()| - |w|;
    assert w == e.Before()[cut..];
    var headTail := head[cut..];
    assert w == headTail + line;
    assert |headTail| == 0 || headTail[|headTail| - 1] == head[|head| - 1];
    ThisLineAfterBreak(headTail, line);
  }

  /** The text in front of a line that fits in the window is empty or ends
      in a line break. */
  lemma HeadEndsLine(e: Editor, window: nat)
    requires e.Valid() && e.readable
    requires |CurrentLine(e, window)| < window || e.selStart <= window
    ensures var line := CurrentLine(e, window);
      var head := e.text[..e.selStart - |line|];
      && '\n' !in line && IsSuffix(line, e.Before())
      && (|head| == 0 || head[|head| - 1] == '\n')
  {
    var line := CurrentLine(e, window);
    CurrentLineSpec(e, window);
    var head := e.text[..e.selStart - |line|];
    assert |head| == 0 || head[|head| - 1] == e.text[e.selStart - |line| - 1];
  }

  /** When the indented line fits in the window, IndentBack finds it as the
      current line. */
  lemma IndentedLineSeen(e: Editor)
    requires e.Valid() && e.readable && !e.HasSelection()
    requires |CurrentLine(e, IndentWindow)| + |Indent| <= IndentWindow
    ensures var f := Perform(IndentForward, e);
      CurrentLine(f, IndentWindow) == Indent + CurrentLine(e, IndentWindow)
  {
    IndentForwardRewritesLine(e);
    IndentedEditorLineSeen(e, Perform(IndentForward, e));
  }

  /** The editor with four spaces put in front of the current line shows the
      indented line as its current line whenever it fits in the window. */
  lemma IndentedEditorLineSeen(e: Editor, f: Editor)
    requires e.Valid() && e.readable
    requires |CurrentLine(e, IndentWindow)| + |Indent| <= IndentWindow
    requires var line := CurrentLine(e, IndentWindow);
      f == Assemble(e, e.text[..e.selStart - |line|] + (Indent + line), "", e.After())
    ensures CurrentLine(f, IndentWindow) == Indent + CurrentLine(e, IndentWindow)
  {
    var line := CurrentLine(e, IndentWindow);
    HeadEndsLine(e, IndentWindow);
    IndentedLineFound(e, f, IndentWindow, e.text[..e.selStart - |line|], line);
  }

  /** A line just indented at the start of a fresh line is the current line
      whenever it fits in the window. */
  lemma IndentedLineFound(e: Editor, f: Editor, window: nat, head: string, line: string)
    requires e.Valid() && e.readable
    requires f == Assemble(e, head + (Indent + line), "", e.After())
    requires |head| == 0 || head[|head| - 1] == '\n'
    requires '\n' !in line && |Indent + line| <= window
    ensures CurrentLine(f, window) == Indent + line
  {
    NotInConcat('\n', Indent, line);
    WholeLineInWindow(f, window, head, Indent + line);
  }

  /** Taking out again the four spaces that were put in front of the line
      restores the editor. */
  lemma RestoreLine(e: Editor, f: Editor, head: string, line: string)
    requires e.Valid() && !e.HasSelection() && e.Before() == head + line
    requires f == Assemble(e, head + (Indent + line), "", e.After())
    ensures Assemble(f, f.text[..f.selStart - |Indent + line|] + ReplaceFirst(Indent + line, Indent, ""), "", f.After()) == e
  {
    ReplaceFirstLeading(Indent, line);
    assert f.text[..f.selStart - |Indent + line|] == f.Before()[..|head|] == head;
    SameParts(Assemble(f, head + line, "", f.After()), e);
  }

  /** IndentBack undoes IndentForward, as long as the indented line still
      fits in the window the keys look at. */
  lemma IndentRoundTrip(e: Editor)
    requires e.Valid() && e.readable && !e.HasSelection()
    requires |CurrentLine(e, IndentWindow)| + |Indent| <= IndentWindow
    ensures Perform(IndentBack, Perform(IndentForward, e)) == e
  {
    var line := CurrentLine(e, IndentWindow);
    var head := e.text[..e.selStart - |line|];
    CurrentLineSpec(e, IndentWindow);
    BeforeEndsInLine(e, line);
    IndentForwardRewritesLine(e);
    IndentedLineSeen(e);
    var f := Perform(IndentForward, e);
    IndentBackRemovesFirstRun(f);
    RestoreLine(e, f, head, line);
  }

  // ---------------------------------------------------------------------
  // Batches

  /** Every key leaves the batch depth as it found it, except an indent key
      on an unreadable editor, which leaves one batch open. */
  lemma BatchBalance(action: KeyAction, e: Editor)
    requires e.Valid()
    ensures var r := Perform(action, e);
      var leaks := (action.IndentForward? || action.IndentBack?) && !e.readable;
      && (leaks ==> r.batchDepth == e.batchDepth + 1)
      && (!leaks ==> r.batchDepth == e.batchDepth)
  {
    match action
    case CommitText(t) => CommitTextInserts(e, t);
    case Delete => DeleteNeverOverreaches(e);
    case Enter => EnterAndDoneAreHostEvents(e);
    case Done => EnterAndDoneAreHostEvents(e);
    case BoldSelection =>
      if e.readable && e.HasSelection() { BoldWrapsSelection(e); } else { BoldInsertsEmptyPair(e); }
    case IndentForward =>
      if e.readable { IndentForwardRewritesLine(e); } else { IndentUnreadableLeavesBatchOpen(action, e); }
    case IndentBack =>
      if e.readable { IndentBackRemovesFirstRun(e); } else { IndentUnreadableLeavesBatchOpen(action, e); }
    case _ => IdleKeys(action, e);
  }
}

=== FILE: findings.dfy ===
/** Three places where the engine, read against the connection's documented
    semantics, does not do what it evidently means to do, each with the
    behaviour as written, the input that shows the gap, and a corrected
    definition with the intended property proved.

    1. BoldSelection with a selection calls `deleteSurroundingText(n, 0)`
       with `n` the selection's length. That call never removes the
       selection: it removes `n` characters in FRONT of it. The selection
       is then replaced by `commitText` anyway, so the text before the
       selection is lost.
    2. The indent keys look at only the last 100 characters before the
       cursor. On a line longer than that, the "current line" they find is
       the tail of the real line: IndentForward puts its spaces in the
       middle of the line, and IndentBack no longer undoes it.
    3. The indent keys delete the current line in front of the selection
       and commit the rewritten line with `commitText`, which replaces the
       selection: the selected text is lost. */
module Findings {
  import opened Optional
  import opened Strings
  import opened Connection
  import opened Keyboard
  import opened EditLaws

  // ---------------------------------------------------------------------
  // 1. BoldSelection eats the text before the selection

  /** As written: with `ab ` in front of the selected `hello`, Bold leaves
      only `**hello**`. */
  lemma BoldSelectionDropsPrefix(e: Editor)
    requires e == Editor("ab hello", 3, 8, true, 0, [])
    ensures Perform(BoldSelection, e).text == "**hello**"
  {
    assert e.Selected() == "hello" && e.After() == "";
    BoldDropsAllBefore(e);
    BoldHello();
  }

  lemma BoldHello()
    ensures Bold + "hello" + Bold + "" == "**hello**"
  {
  }

  /** As written, when the selection is at least as long as the text in
      front of it, Bold keeps nothing of that text. */
  lemma BoldDropsAllBefore(e: Editor)
    requires e.Valid() && e.readable && e.HasSelection() && e.selStart <= |e.Selected()|
    ensures Perform(BoldSelection, e).text == Bold + e.Selected() + Bold + e.After()
  {
    BoldWrapsSelection(e);
    assert e.text[..0] == [];
  }

  /** As written, whenever something stands before a readable selection,
      Bold loses some of it. */
  lemma BoldSelectionLosesText(e: Editor)
    requires e.Valid() && e.readable && e.HasSelection() && e.selStart > 0
    ensures |Perform(BoldSelection, e).text| < |e.text| + |Bold + Bold|
  {
    BoldWrapsSelection(e);
  }

  /** Bold as intended: the selection is replaced by itself wrapped in
      markers; nothing is deleted in front of it. */
  function BoldPlanCorrected(e: Editor): seq<Op>
    requires e.Valid()
  {
    match SelectedText(e)
    case None =>
      [BeginBatchEdit, Commit(Bold, 1), Commit(Bold, 0), EndBatchEdit]
    case Some(sel) =>
      if |sel| == 0 then
        [BeginBatchEdit, Commit(Bold, 1), Commit(Bold, 0), EndBatchEdit]
      else
        [BeginBatchEdit, Commit(Bold + sel + Bold, 1), EndBatchEdit]
  }

  // ---------------------------------------------------------------------
  // 2. The indent keys see only the last 100 characters of a line

  /** A window without a line break is the current line in full. */
  lemma WindowIsLine(e: Editor, window: nat)
    requires e.Valid() && e.readable && window <= e.selStart
    requires '\n' !in e.text[e.selStart - window..e.selStart]
    ensures CurrentLine(e, window) == e.text[e.selStart - window..e.selStart]
  {
    ThisLineWithoutBreak(e.text[e.selStart - window..e.selStart]);
  }

  /** A text without spaces holds no run of four spaces. */
  lemma NoRunWithoutSpace(w: string)
    requires ' ' !in w
    ensures forall j: nat :: !OccursAt(w, Indent, j)
  {
    forall j: nat
      ensures !OccursAt(w, Indent, j)
    {
      if j + |Indent| <= |w| {
        assert w[j..j + |Indent|][0] == w[j];
      }
    }
  }

  /** As written: when the last 100 characters before the cursor hold no
      line break, IndentForward puts the four spaces 100 characters before
      the cursor. On a line longer than that, this is inside the line. */
  lemma IndentSplitsLongLine(e: Editor)
    requires e.Valid() && e.readable
    requires e.selStart >= IndentWindow && '\n' !in e.text[e.selStart - IndentWindow..e.selStart]
    ensures var c := e.selStart;
      Perform(IndentForward, e)
        == Assemble(e, e.text[..c - IndentWindow] + (Indent + e.text[c - IndentWindow..c]), "", e.After())
  {
    IndentForwardRewritesLine(e);
    IndentedAtWindow(e, Perform(IndentForward, e));
  }

  /** When the window holds no line break, the editor indented at the
      current line is indented at the start of the window. */
  lemma IndentedAtWindow(e: Editor, f: Editor)
    requires e.Valid() && e.readable
    requires e.selStart >= IndentWindow && '\n' !in e.text[e.selStart - IndentWindow..e.selStart]
    requires var line := CurrentLine(e, IndentWindow);
      f == Assemble(e, e.text[..e.selStart - |line|] + (Indent + line), "", e.After())
    ensures var c := e.selStart;
      f == Assemble(e, e.text[..c - IndentWindow] + (Indent + e.text[c - IndentWindow..c]), "", e.After())
  {
    WindowIsLine(e, IndentWindow);
  }

  /** As written, IndentBack finds no run of four spaces in the last 100
      characters of a long line without spaces, so it changes nothing. */
  lemma LongLineUnindentable(f: Editor, head: string, w: string)
    requires f.Valid() && f.readable && !f.HasSelection()
    requires f.Before() == head + w && |w| == IndentWindow
    requires '\n' !in w && ' ' !in w
    ensures Perform(IndentBack, f) == f
  {
    assert f.text[f.selStart - IndentWindow..f.selStart] == w by {
      assert f.text[f.selStart - IndentWindow..f.selStart] == f.Before()[|head|..];
    }
    WindowIsLine(f, IndentWindow);
    NoRunWithoutSpace(w);
    IndentBackWithoutRun(f);
  }

  /** As written, IndentBack does not undo IndentForward on a line whose
      last 100 characters before the cursor hold no space: the indented line
      no longer fits in the window, and the window shows no run of four
      spaces. */
  lemma IndentRoundTripFailsOnLongLine(e: Editor)
    requires e.Valid() && e.readable && !e.HasSelection()
    requires e.selStart >= IndentWindow
    requires '\n' !in e.text[e.selStart - IndentWindow..e.selStart]
    requires ' ' !in e.text[e.selStart - IndentWindow..e.selStart]
    ensures Perform(IndentBack, Perform(IndentForward, e)) != e
  {
    LongLineStaysIndented(e);
  }

  /** On such a line IndentForward yields a different editor, on which
      IndentBack then does nothing. */
  lemma LongLineStaysIndented(e: Editor)
    requires e.Valid() && e.readable && !e.HasSelection()
    requires e.selStart >= IndentWindow
    requires '\n' !in e.text[e.selStart - IndentWindow..e.selStart]
    requires ' ' !in e.text[e.selStart - IndentWindow..e.selStart]
    ensures var f := Perform(IndentForward, e);
      Perform(IndentBack, f) == f && f != e
  {
    IndentSplitsLongLine(e);
    LongLineStays(e, Perform(IndentForward, e));
  }

  /** The editor IndentForward yields on such a line differs from the
      original, and IndentBack leaves it as it is. */
  lemma LongLineStays(e: Editor, f: Editor)
    requires e.Valid() && e.readable && !e.HasSelection()
    requires e.selStart >= IndentWindow
    requires '\n' !in e.text[e.selStart - IndentWindow..e.selStart]
    requires ' ' !in e.text[e.selStart - IndentWindow..e.selStart]
    requires var c := e.selStart;
      f == Assemble(e, e.text[..c - IndentWindow] + (Indent + e.text[c - IndentWindow..c]), "", e.After())
    ensures Perform(IndentBack, f) == f && f != e
  {
    var c := e.selStart;
    LongLineParts(e);
    LongLineUnindentable(f, e.text[..c - IndentWindow] + Indent, e.text[c - IndentWindow..c]);
  }

  /** The pieces of a long line around the window, after IndentForward. */
  lemma LongLineParts(e: Editor)
    requires e.Valid() && e.readable && !e.HasSelection()
    requires e.selStart >= IndentWindow
    ensures var c := e.selStart;
      var w := e.text[c - IndentWindow..c];
      var f := Assemble(e, e.text[..c - IndentWindow] + (Indent + w), "", e.After());
      && |w| == IndentWindow
      && f.Before() == (e.text[..c - IndentWindow] + Indent) + w
      && f.readable && !f.HasSelection() && f != e
  {
    var c := e.selStart;
    var w := e.text[c - IndentWindow..c];
    var f := Assemble(e, e.text[..c - IndentWindow] + (Indent + w), "", e.After());
    assert |f.Selected()| == 0;
    assert f.Before() == (e.text[..c - IndentWindow] + Indent) + w;
    assert |f.text| == |e.text| + |Indent|;
  }

  // ---------------------------------------------------------------------
  // 3. The indent keys eat the selection

  /** As written, an indent key pressed with a readable selection removes
      the selected text: IndentForward adds only the four spaces and loses
      the selection, IndentBack loses the selection and perhaps four spaces
      more. */
  lemma IndentDropsSelection(e: Editor)
    requires e.Valid() && e.readable && e.HasSelection()
    ensures |Perform(IndentForward, e).text| == |e.text| + |Indent| - |e.Selected()|
    ensures |Perform(IndentBack, e).text| <= |e.text| - |e.Selected()|
  {
    var line := CurrentLine(e, IndentWindow);
    Parts(e);
    IndentForwardRewritesLine(e);
    IndentBackRemovesFirstRun(e);
    ReplaceFirstRemoves(line, Indent);
  }

  /** `getSelectedText(0)`, with no selection read as the empty text. */
  function SelectedOrEmpty(e: Editor): (t: string)
    requires e.Valid()
    ensures e.readable ==> t == e.Selected()
  {
    match SelectedText(e)
    case Some(t) => t
    case None => ""
  }

  /** The indent keys as intended: the current line is everything after the
      last line break before the cursor, and the selected text is committed
      back right after the rewritten line. */
  function IndentPlanCorrected(e: Editor, target: string, replacement: string): seq<Op>
    requires e.Valid()
  {
    match TextBeforeCursor(e, e.selStart)
    case None => [BeginBatchEdit]
    case Some(prefix) =>
      var line := ThisLine(prefix);
      var sel := SelectedOrEmpty(e);
      [BeginBatchEdit, DeleteSurrounding(|line|, 0), Commit(ReplaceFirst(line, target, replacement) + sel, 1), EndBatchEdit]
  }

  /** The corrected indent keys rewrite the whole current line and put the
      selected text back after it, leaving the cursor at its end. */
  lemma IndentCorrectedRewrites(e: Editor, target: string, replacement: string)
    requires e.Valid() && e.readable
    ensures var line := CurrentLine(e, e.selStart);
      var newLine := ReplaceFirst(line, target, replacement);
      Apply(IndentPlanCorrected(e, target, replacement), e)
        == Assemble(e, e.text[..e.selStart - |line|] + (newLine + e.Selected()), "", e.After())
  {
    var line := CurrentLine(e, e.selStart);
    var t := ReplaceFirst(line, target, replacement) + SelectedOrEmpty(e);
    CurrentLineSpec(e, e.selStart);
    assert IndentPlanCorrected(e, target, replacement)
      == [BeginBatchEdit, DeleteSurrounding(|line|, 0), Commit(t, 1), EndBatchEdit];
    ApplyFour(BeginBatchEdit, DeleteSurrounding(|line|, 0), Commit(t, 1), EndBatchEdit, e);
    ReplaceBeforeCursor(e, |line|, t);
  }

  /** Without a readable selection the corrected indent plan is the plan as
      written over a window reaching back to the start of the text. */
  lemma IndentCorrectedWithoutSelection(e: Editor, target: string, replacement: string)
    requires e.Valid() && !(e.readable && e.HasSelection())
    ensures IndentPlanCorrected(e, target, replacement) == IndentPlan(e, e.selStart, target, replacement)
  {
    if e.readable {
      var line := ThisLine(TextBeforeCursor(e, e.selStart).value);
      assert ReplaceFirst(line, target, replacement) + "" == ReplaceFirst(line, target, replacement);
    }
  }

  // ---------------------------------------------------------------------
  // The corrected engine

  /** The corrected performKeyAction: Bold without the stray delete, and the
      indent keys looking back over the whole text before the cursor and
      keeping the selected text. Every other key is as written. */
  function PerformCorrected(action: KeyAction, e: Editor): (r: Editor)
    requires e.Valid()
    ensures r.Valid() && r.readable == e.readable
  {
    match action
    case BoldSelection => Apply(BoldPlanCorrected(e), e)
    case IndentForward => Apply(IndentPlanCorrected(e, "", Indent), e)
    case IndentBack => Apply(IndentPlanCorrected(e, Indent, ""), e)
    case _ => Perform(action, e)
  }

  /** The corrected keys run their plans. */
  lemma CorrectedPlans(e: Editor)
    requires e.Valid()
    ensures PerformCorrected(BoldSelection, e) == Apply(BoldPlanCorrected(e), e)
    ensures PerformCorrected(IndentForward, e) == Apply(IndentPlanCorrected(e, "", Indent), e)
    ensures PerformCorrected(IndentBack, e) == Apply(IndentPlanCorrected(e, Indent, ""), e)
  {
  }

  /** Corrected Bold wraps the selection in markers and keeps everything
      around it. */
  lemma BoldCorrectedWraps(e: Editor)
    requires e.Valid() && e.readable && e.HasSelection()
    ensures PerformCorrected(BoldSelection, e) == Assemble(e, e.Before() + (Bold + e.Selected() + Bold), "", e.After())
  {
    var t := Bold + e.Selected() + Bold;
    assert BoldPlanCorrected(e) == [BeginBatchEdit, Commit(t, 1), EndBatchEdit];
    CorrectedPlans(e);
    ApplyThree(BeginBatchEdit, Commit(t, 1), EndBatchEdit, e);
    CommitInBatch(e, t);
  }

  /** Taking the markers out of the corrected result gives the text back. */
  lemma BoldCorrectedUnwraps(e: Editor)
    requires e.Valid() && e.readable && e.HasSelection()
    ensures var r := PerformCorrected(BoldSelection, e);
      var n := |e.Selected()|;
      && r.selStart == e.selStart + n + 4 && |r.text| == |e.text| + 4
      && r.text[..e.selStart] + r.text[e.selStart + 2..e.selStart + 2 + n] + r.text[r.selStart..] == e.text
  {
    BoldCorrectedWraps(e);
    UnwrapEditor(e, PerformCorrected(BoldSelection, e));
  }

  /** Cutting the markers out of an editor holding the wrapped selection. */
  lemma UnwrapEditor(e: Editor, r: Editor)
    requires e.Valid()
    requires r == Assemble(e, e.Before() + (Bold + e.Selected() + Bold), "", e.After())
    ensures var n := |e.Selected()|;
      && r.selStart == e.selStart + n + 4 && |r.text| == |e.text| + 4
      && r.text[..e.selStart] + r.text[e.selStart + 2..e.selStart + 2 + n] + r.text[r.selStart..] == e.text
  {
    Unwrap(e.Before(), e.Selected(), e.After(), r.text);
    Parts(e);
  }

  /** Cutting the two markers out of `before ** selected ** after`. */
  lemma Unwrap(before: string, selected: string, after: string, t: string)
    requires t == before + (Bold + selected + Bold) + "" + after
    ensures var i := |before|;
      t[..i] + t[i + 2..i + 2 + |selected|] + t[i + |selected| + 4..] == before + selected + after
  {
    var i := |before|;
    assert t[..i] == before;
    assert t[i + 2..i + 2 + |selected|] == selected;
    assert t[i + |selected| + 4..] == after;
  }

  /** Corrected IndentForward puts its spaces at the start of the current
      line: right after the last line break before the cursor, or at the
      start of the text. The selected text stays in place. */
  lemma IndentCorrectedAtLineStart(e: Editor)
    requires e.Valid() && e.readable
    ensures var line := CurrentLine(e, e.selStart);
      var p := e.selStart - |line|;
      && (p == 0 || e.text[p - 1] == '\n')
      && PerformCorrected(IndentForward, e) == Assemble(e, e.text[..p] + ((Indent + line) + e.Selected()), "", e.After())
  {
    var line := CurrentLine(e, e.selStart);
    LineStartsAtBreak(e);
    CorrectedPlans(e);
    IndentCorrectedRewrites(e, "", Indent);
    ReplaceFirstEmpty(line, Indent);
  }

  /** With the whole text before the cursor as the window, the current line
      starts at the start of the text or right after a line break. */
  lemma LineStartsAtBreak(e: Editor)
    requires e.Valid() && e.readable
    ensures var p := e.selStart - |CurrentLine(e, e.selStart)|;
      p == 0 || e.text[p - 1] == '\n'
  {
    CurrentLineSpec(e, e.selStart);
  }

  /** Corrected IndentForward changes the text only by four spaces at the
      start of the current line. */
  lemma IndentCorrectedKeepsText(e: Editor)
    requires e.Valid() && e.readable
    ensures var p := e.selStart - |CurrentLine(e, e.selStart)|;
      PerformCorrected(IndentForward, e).text == e.text[..p] + Indent + e.text[p..]
  {
    IndentCorrectedAtLineStart(e);
    IndentedText(e, PerformCorrected(IndentForward, e));
  }

  /** An editor holding `e`'s text with the current line indented holds
      `e`'s text with four spaces inserted in front of that line. */
  lemma IndentedText(e: Editor, r: Editor)
    requires e.Valid() && e.readable
    requires var line := CurrentLine(e, e.selStart);
      r == Assemble(e, e.text[..e.selStart - |line|] + ((Indent + line) + e.Selected()), "", e.After())
    ensures var p := e.selStart - |CurrentLine(e, e.selStart)|;
      r.text == e.text[..p] + Indent + e.text[p..]
  {
    var line := CurrentLine(e, e.selStart);
    var p := e.selStart - |line|;
    CurrentLineSpec(e, e.selStart);
    BeforeEndsInLine(e, line);
    Parts(e);
    InsertIndent(e.text, e.text[..p], line, e.Selected(), e.After());
  }

  /** Four spaces inserted in front of `line` in `head + line + sel + after`. */
  lemma InsertIndent(t: string, head: string, line: string, sel: string, after: string)
    requires t == (head + line) + sel + after
    ensures (head + ((Indent + line) + sel)) + "" + after == t[..|head|] + Indent + t[|head|..]
  {
    assert t[..|head|] == head;
    assert t[|head|..] == line + sel + after;
  }

  /** Corrected IndentBack takes the first run of four spaces out of the
      whole current line. */
  lemma IndentBackCorrectedRemovesFirstRun(e: Editor)
    requires e.Valid() && e.readable
    ensures var line := CurrentLine(e, e.selStart);
      var newLine := ReplaceFirst(line, Indent, "");
      PerformCorrected(IndentBack, e) == Assemble(e, e.text[..e.selStart - |line|] + (newLine + e.Selected()), "", e.After())
  {
    CorrectedPlans(e);
    IndentCorrectedRewrites(e, Indent, "");
  }

  /** After corrected IndentForward, the current line is the indented line
      followed by the text that was selected, as long as that text holds no
      line break. */
  lemma IndentCorrectedLineSeen(e: Editor)
    requires e.Valid() && e.readable && '\n' !in e.Selected()
    ensures var f := PerformCorrected(IndentForward, e);
      CurrentLine(f, f.selStart) == Indent + (CurrentLine(e, e.selStart) + e.Selected())
  {
    IndentCorrectedAtLineStart(e);
    CorrectedLineFound(e, PerformCorrected(IndentForward, e));
  }

  /** The editor with four spaces put in front of the whole current line,
      followed by the selected text, shows all of that as its current
      line. */
  lemma CorrectedLineFound(e: Editor, f: Editor)
    requires e.Valid() && e.readable && '\n' !in e.Selected()
    requires var line := CurrentLine(e, e.selStart);
      f == Assemble(e, e.text[..e.selStart - |line|] + ((Indent + line) + e.Selected()), "", e.After())
    ensures CurrentLine(f, f.selStart) == Indent + (CurrentLine(e, e.selStart) + e.Selected())
  {
    var line := CurrentLine(e, e.selStart);
    var head := e.text[..e.selStart - |line|];
    HeadEndsLine(e, e.selStart);
    NotInConcat('\n', line, e.Selected());
    Regroup(head, Indent, line, e.Selected());
    IndentedLineFound(e, f, f.selStart, head, line + e.Selected());
  }

  /** Regrouping a concatenation of four pieces. */
  lemma Regroup(a: string, b: string, c: string, d: string)
    ensures a + ((b + c) + d) == a + (b + (c + d))
  {
  }

  /** With the whole line in view, IndentBack undoes IndentForward on every
      line, however long. */
  lemma IndentCorrectedRoundTrip(e: Editor)
    requires e.Valid() && e.readable && !e.HasSelection()
    ensures PerformCorrected(IndentBack, PerformCorrected(IndentForward, e)) == e
  {
    var line := CurrentLine(e, e.selStart);
    var head := e.text[..e.selStart - |line|];
    assert e.Selected() == "";
    assert line + e.Selected() == line;
    assert (Indent + line) + e.Selected() == Indent + line;
    CurrentLineSpec(e, e.selStart);
    BeforeEndsInLine(e, line);
    IndentCorrectedAtLineStart(e);
    IndentCorrectedLineSeen(e);
    var f := PerformCorrected(IndentForward, e);
    IndentBackCorrectedRemovesFirstRun(f);
    assert f.Selected() == "";
    assert ReplaceFirst(Indent + line, Indent, "") + f.Selected() == ReplaceFirst(Indent + line, Indent, "");
    RestoreLine(e, f, head, line);
  }

  /** The indent plan depends on the window only through what it shows. */
  lemma IndentPlanWindow(e: Editor, w1: nat, w2: nat, target: string, replacement: string)
    requires e.Valid() && Min(w1, e.selStart) == Min(w2, e.selStart)
    ensures IndentPlan(e, w1, target, replacement) == IndentPlan(e, w2, target, replacement)
  {
    assert TextBeforeCursor(e, w1) == TextBeforeCursor(e, w2);
  }

  /** Without a readable selection the corrected Bold is Bold as written. */
  lemma BoldCorrectedWithoutSelection(e: Editor)
    requires e.Valid() && !(e.readable && e.HasSelection())
    ensures PerformCorrected(BoldSelection, e) == Perform(BoldSelection, e)
  {
    assert BoldPlanCorrected(e) == BoldPlan(e);
  }

  /** The corrected engine differs from the engine as written only where the
      findings say: Bold on a readable selection with text in front of it,
      and the indent keys on a readable selection or when the cursor is more
      than 100 characters into the text. */
  lemma CorrectionsAreLocal(action: KeyAction, e: Editor)
    requires e.Valid()
    ensures !action.BoldSelection? && !action.IndentForward? && !action.IndentBack? ==>
      PerformCorrected(action, e) == Perform(action, e)
    ensures action.BoldSelection? ==>
      (PerformCorrected(action, e) == Perform(action, e) <==> !(e.readable && e.HasSelection() && e.selStart > 0))
    ensures (action.IndentForward? || action.IndentBack?) && e.selStart <= IndentWindow && !(e.readable && e.HasSelection())
      ==> PerformCorrected(action, e) == Perform(action, e)
    ensures action.IndentForward? && e.readable && e.HasSelection() ==>
      PerformCorrected(action, e) != Perform(action, e)
  {
    if action.BoldSelection? {
      if e.readable && e.HasSelection() {
        BoldWrapsSelection(e);
        BoldCorrectedWraps(e);
        if e.selStart == 0 {
          assert e.text[..0] == e.Before();
        } else {
          assert |PerformCorrected(action, e).text| != |Perform(action, e).text|;
        }
      } else {
        BoldCorrectedWithoutSelection(e);
      }
    } else if action.IndentForward? || action.IndentBack? {
      if e.readable && e.HasSelection() {
        if action.IndentForward? {
          IndentDropsSelection(e);
          IndentCorrectedKeepsText(e);
        }
      } else if e.selStart <= IndentWindow {
        IndentKeysUsePlan(e);
        CorrectedPlans(e);
        IndentCorrectedWithoutSelection(e, "", Indent);
        IndentCorrectedWithoutSelection(e, Indent, "");
        IndentPlanWindow(e, IndentWindow, e.selStart, "", Indent);
        IndentPlanWindow(e, IndentWindow, e.selStart, Indent, "");
      }
    }
  }
}

=== FILE: keyboard.dfy ===
/** The markdown edit engine: `performKeyAction` of the keyboard.

    A key press yields one `KeyAction`. The engine reads a small window of
    text around the cursor and answers with a short list of calls on the
    connection or the input method service (`Plan`), which the host then carries out (`Perform`). Every branch does
    all of its reads before its first write, and starting a batch does not
    change what a read returns, so the reads are taken on the editor as it
    was when the key was pressed. */
module Keyboard {
  import opened Optional
  import opened Strings
  import opened Connection

  /** The closed set of key intents. */
  datatype KeyAction =
    | CommitText(text: string)
    | Delete
    | Done
    | Enter
    | IndentForward
    | IndentBack
    | BoldSelection
    | UnderlineSelection
    | CursiveSelection
    | Empty

  /** The bold marker. */
  const Bold: string := "**"

  /** One level of indentation. */
  const Indent: string := "    "

  /** How far back the indent keys look for the current line. */
  const IndentWindow: nat := 100

  /** How far on each side the delete key looks for markers. */
  const DeleteWindow: nat := 2

  /** Delete: collapse an empty `**|**` pair, else a `*|*` pair, else send a
      plain backspace key. The marker test looks at up to two characters on
      each side of the selection. */
  function DeletePlan(e: Editor): seq<Op>
    requires e.Valid()
  {
    match GetSurroundingText(e, DeleteWindow, DeleteWindow)
    case Some(st) =>
      var prefix := st.text[..st.selectionStart];
      var suffix := st.text[st.selectionEnd..];
      if |prefix| > 0 && |suffix| > 0 && prefix == Bold && suffix == Bold then
        [DeleteSurrounding(2, 2)]
      else if |prefix| > 0 && |suffix| > 0 && prefix[|prefix| - 1] == '*' && suffix[0] == '*' then
        [DeleteSurrounding(1, 1)]
      else
        [SendKeyDown(KeyDel)]
    case None =>
      [SendKeyDown(KeyDel)]
  }

  /** Bold: with nothing selected, commit the marker twice, the second time
      leaving the cursor in front of it; with a selection, delete as many
      characters as the selection holds before it and commit the selection
      wrapped in markers. */
  function BoldPlan(e: Editor): seq<Op>
    requires e.Valid()
  {
    match SelectedText(e)
    case None =>
      [BeginBatchEdit, Commit(Bold, 1), Commit(Bold, 0), EndBatchEdit]
    case Some(sel) =>
      if |sel| == 0 then
        [BeginBatchEdit, Commit(Bold, 1), Commit(Bold, 0), EndBatchEdit]
      else
        [BeginBatchEdit, DeleteSurrounding(|sel|, 0), Commit(Bold + sel + Bold, 1), EndBatchEdit]
  }

  /** The indent keys: take the current line inside the last `window`
      characters before the cursor, delete it, and commit it back with its
      first `target` replaced by `replacement`. When the text cannot be read
      the key returns right after opening the batch, without closing it. */
  function IndentPlan(e: Editor, window: nat, target: string, replacement: string): seq<Op>
    requires e.Valid()
  {
    match TextBeforeCursor(e, window)
    case None => [BeginBatchEdit]
    case Some(prefix) =>
      var line := ThisLine(prefix);
      [BeginBatchEdit, DeleteSurrounding(|line|, 0), Commit(ReplaceFirst(line, target, replacement), 1), EndBatchEdit]
  }

  /** The calls `performKeyAction` makes for one key press. */
  function Plan(action: KeyAction, e: Editor): seq<Op>
    requires e.Valid()
  {
    match action
    case CommitText(t) => [Commit(t, 1)]
    case Delete => DeletePlan(e)
    case Done => [RequestHideSelf]
    case Enter => [SendKeyDown(KeyEnter)]
    case BoldSelection => BoldPlan(e)
    case CursiveSelection => []
    case IndentForward => IndentPlan(e, IndentWindow, "", Indent)
    case IndentBack => IndentPlan(e, IndentWindow, Indent, "")
    case UnderlineSelection => []
    case Empty => []
  }

  /** `performKeyAction`: the editor after the key press. The engine never
      drops host events; only Enter, Done and the fallback of Delete
      hand the host one, and no key hands it more. */
  function Perform(action: KeyAction, e: Editor): (r: Editor)
    requires e.Valid()
    ensures r.Valid() && r.readable == e.readable
    ensures action.Enter? ==> r.events == e.events + [KeyDown(KeyEnter)]
    ensures action.Done? ==> r.events == e.events + [HideSelf]
    ensures action.Delete? ==> r.events == e.events || r.events == e.events + [KeyDown(KeyDel)]
    ensures !action.Enter? && !action.Done? && !action.Delete? ==> r.events == e.events
  {
    PlanEmits(action, e);
    Apply(Plan(action, e), e)
  }

  /** Bold and the indent keys make only text and batch calls. */
  lemma BoldPlanSilent(e: Editor)
    requires e.Valid()
    ensures Silent(BoldPlan(e))
  {
  }

  lemma IndentPlanSilent(e: Editor, window: nat, target: string, replacement: string)
    requires e.Valid()
    ensures Silent(IndentPlan(e, window, target, replacement))
  {
  }

  /** Delete makes exactly one call: a delete around the cursor or the raw
      backspace. */
  lemma DeletePlanSingle(e: Editor)
    requires e.Valid()
    ensures |DeletePlan(e)| == 1
    ensures DeletePlan(e)[0].DeleteSurrounding? || DeletePlan(e)[0] == SendKeyDown(KeyDel)
  {
  }

  /** Which host events a key's calls carry. */
  lemma PlanEmits(action: KeyAction, e: Editor)
    requires e.Valid()
    ensures action.Enter? ==> Emitted(Plan(action, e)) == [KeyDown(KeyEnter)]
    ensures action.Done? ==> Emitted(Plan(action, e)) == [HideSelf]
    ensures action.Delete? ==> Emitted(Plan(action, e)) == [] || Emitted(Plan(action, e)) == [KeyDown(KeyDel)]
    ensures !action.Enter? && !action.Done? && !action.Delete? ==> Emitted(Plan(action, e)) == []
  {
    match action
    case Enter => EmittedSingle(SendKeyDown(KeyEnter));
    case Done => EmittedSingle(RequestHideSelf);
    case Delete =>
      var ops := DeletePlan(e);
      DeletePlanSingle(e);
      EmittedSingle(ops[0]);
      assert ops == [ops[0]];
    case BoldSelection =>
      BoldPlanSilent(e);
      SilentEmitsNothing(BoldPlan(e));
    case IndentForward =>
      IndentPlanSilent(e, IndentWindow, "", Indent);
      SilentEmitsNothing(IndentPlan(e, IndentWindow, "", Indent));
    case IndentBack =>
      IndentPlanSilent(e, IndentWindow, Indent, "");
      SilentEmitsNothing(IndentPlan(e, IndentWindow, Indent, ""));
    case CommitText(t) => EmittedSingle(Commit(t, 1));
    case _ =>
  }
}

=== FILE: optional.dfy ===
/** A value that may be absent: the model of a Kotlin nullable (`T?`) result,
    such as a text read that the host editor declines to answer. */
module Optional {

  datatype Option<+T> = None | Some(value: T)
}

=== FILE: scenarios.dfy ===
/** The engine on the concrete inputs the keyboard's behaviour is usually
    described with; `|` marks the cursor. */
module Scenarios {
  import opened Connection
  import opened Keyboard
  import opened EditLaws

  /** `ab**|**cd` becomes `ab|cd` on Delete. */
  lemma DeleteEmptyBoldPairExample(e: Editor)
    requires e == Editor("ab****cd", 4, 4, true, 0, [])
    ensures Perform(Delete, e) == Editor("abcd", 2, 2, true, 0, [])
  {
    assert e.text[2..4] == Bold && e.text[4..6] == Bold;
    DeleteCollapsesBoldPair(e);
    assert e.text[..2] + "" + e.text[6..] == "abcd";
  }

  /** `a*|*b` becomes `a|b` on Delete. */
  lemma DeleteStarPairExample(e: Editor)
    requires e == Editor("a**b", 2, 2, true, 0, [])
    ensures Perform(Delete, e) == Editor("ab", 1, 1, true, 0, [])
  {
    assert e.text[0] == 'a' && e.text[0..2][0] == e.text[0];
    DeleteCollapsesStarPair(e);
    assert e.text[..1] + "" + e.text[3..] == "ab";
  }

  /** `a|b` on Delete hands the host a plain backspace. */
  lemma DeleteFallbackExample(e: Editor)
    requires e == Editor("ab", 1, 1, true, 0, [])
    ensures Perform(Delete, e) == e.(events := [KeyDown(KeyDel)])
  {
    assert e.text[0..1] == "a";
    DeleteFallsBack(e);
  }

  /** `ab|cd` becomes `ab**|**cd` on Bold. */
  lemma BoldEmptySelectionExample(e: Editor)
    requires e == Editor("abcd", 2, 2, true, 0, [])
    ensures Perform(BoldSelection, e) == Editor("ab****cd", 4, 4, true, 0, [])
  {
    assert e.Before() == "ab" && e.After() == "cd";
    BoldInsertsEmptyPair(e);
    PairBetween();
  }

  lemma PairBetween()
    ensures ("ab" + Bold) + "" + (Bold + "cd") == "ab****cd" && |"ab" + Bold| == 4
  {
  }
}

=== FILE: strings.dfy ===
/** The string helpers of the keyboard: Kotlin's `split`, `last`, `indexOf`
    and `replaceFirst` as the edit engine uses them, and `getThisLine`. */
module Strings {
  import opened Optional

  /** `p` is a prefix / suffix of `s`. */
  predicate IsPrefix<T(==)>(p: seq<T>, s: seq<T>) {
    |p| <= |s| && s[..|p|] == p
  }

  predicate IsSuffix<T(==)>(p: seq<T>, s: seq<T>) {
    |p| <= |s| && s[|s| - |p|..] == p
  }

  /** A suffix of a suffix is a suffix. */
  lemma SuffixOfSuffix<T>(a: seq<T>, b: seq<T>, c: seq<T>)
    requires IsSuffix(a, b) && IsSuffix(b, c)
    ensures IsSuffix(a, c)
  {
    assert c[|c| - |a|..] == c[|c| - |b|..][|b| - |a|..];
  }

  /** Kotlin's `split(d)` for a one-character delimiter: the pieces between
      the delimiters, in order. There is always at least one piece. */
  function Split(s: string, d: char): (pieces: seq<string>)
    ensures |pieces| >= 1
    decreases |s|
  {
    if |s| == 0 then [""]
    else
      var rest := Split(s[1..], d);
      if s[0] == d then [""] + rest
      else [[s[0]] + rest[0]] + rest[1..]
  }

  /** No piece holds the delimiter. */
  lemma {:induction false} SplitPiecesFree(s: string, d: char)
    ensures forall i :: 0 <= i < |Split(s, d)| ==> d !in Split(s, d)[i]
    decreases |s|
  {
    if |s| > 0 {
      SplitPiecesFree(s[1..], d);
    }
  }

  /** Puts the pieces back together with the delimiter between them. */
  function Join(pieces: seq<string>, d: char): string
    requires |pieces| >= 1
    decreases |pieces|
  {
    if |pieces| == 1 then pieces[0]
    else pieces[0] + [d] + Join(pieces[1..], d)
  }

  /** Splitting loses nothing: joining the pieces gives the input back. */
  lemma {:induction false} JoinSplit(s: string, d: char)
    ensures Join(Split(s, d), d) == s
    decreases |s|
  {
    if |s| > 0 {
      var rest := Split(s[1..], d);
      JoinSplit(s[1..], d);
      if s[0] == d {
        assert Split(s, d) == [""] + rest;
        assert ([""] + rest)[1..] == rest;
      } else {
        var pieces := [[s[0]] + rest[0]] + rest[1..];
        assert Split(s, d) == pieces;
        if |rest| > 1 {
          assert pieces[1..] == rest[1..];
          assert Join(rest, d) == rest[0] + [d] + Join(rest[1..], d);
        }
        assert s == [s[0]] + s[1..];
      }
    }
  }

  /** The last piece of a join with two or more pieces follows a delimiter. */
  lemma {:induction false} JoinLast(pieces: seq<string>, d: char)
    requires |pieces| >= 2
    ensures Join(pieces, d) == Join(pieces[..|pieces| - 1], d) + [d] + pieces[|pieces| - 1]
    decreases |pieces|
  {
    if |pieces| > 2 {
      JoinLast(pieces[1..], d);
      assert pieces[1..][..|pieces| - 2] == pieces[..|pieces| - 1][1..];
    }
  }

  /** `getThisLine`: the last piece of the text split at line breaks. */
  function ThisLine(s: string): string {
    var pieces := Split(s, '\n');
    pieces[|pieces| - 1]
  }

  /** The current line is the text after the last line break (the whole
      text when it has none): a suffix without a line break, preceded by a
      line break unless it is the whole text. */
  lemma ThisLineSpec(s: string)
    ensures var line := ThisLine(s);
      && '\n' !in line
      && IsSuffix(line, s)
      && (line == s || (|line| < |s| && s[|s| - |line| - 1] == '\n'))
  {
    var pieces := Split(s, '\n');
    var line := pieces[|pieces| - 1];
    SplitPiecesFree(s, '\n');
    JoinSplit(s, '\n');
    if |pieces| >= 2 {
      JoinLast(pieces, '\n');
      var pre := Join(pieces[..|pieces| - 1], '\n') + ['\n'];
      assert s == pre + line;
      assert s[|pre|..] == line;
      assert s[|pre| - 1] == '\n';
    }
  }

  /** A text without the delimiter is a single piece. */
  lemma {:induction false} SplitWithoutDelimiter(s: string, d: char)
    requires d !in s
    ensures Split(s, d) == [s]
    decreases |s|
  {
    if |s| > 0 {
      SplitWithoutDelimiter(s[1..], d);
      assert [s[0]] + s[1..] == s;
    }
  }

  /** After a text that ends in the delimiter, a delimiter-free tail is the
      last piece, and there are at least two pieces. */
  lemma {:induction false} SplitAfterDelimiter(before: string, tail: string, d: char)
    requires |before| > 0 && before[|before| - 1] == d
    requires d !in tail
    ensures var pieces := Split(before + tail, d);
      |pieces| >= 2 && pieces[|pieces| - 1] == tail
    decreases |before|
  {
    var s := before + tail;
    var rest := Split(s[1..], d);
    if |before| == 1 {
      assert s[1..] == tail;
      SplitWithoutDelimiter(tail, d);
      assert Split(s, d) == [""] + rest;
    } else {
      assert s[1..] == before[1..] + tail;
      SplitAfterDelimiter(before[1..], tail, d);
      var pieces := Split(s, d);
      if s[0] == d {
        assert pieces == [""] + rest;
      } else {
        assert pieces == [[s[0]] + rest[0]] + rest[1..];
      }
      assert pieces[|pieces| - 1] == rest[|rest| - 1];
    }
  }

  /** The current line of a text that begins a fresh line with `line` is
      `line` itself. */
  lemma ThisLineAfterBreak(before: string, line: string)
    requires |before| == 0 || before[|before| - 1] == '\n'
    requires '\n' !in line
    ensures ThisLine(before + line) == line
  {
    if |before| == 0 {
      assert before + line == line;
      SplitWithoutDelimiter(line, '\n');
    } else {
      SplitAfterDelimiter(before, line, '\n');
    }
  }

  /** A text without a line break is its own current line. */
  lemma ThisLineWithoutBreak(s: string)
    requires '\n' !in s
    ensures ThisLine(s) == s
  {
    ThisLineAfterBreak("", s);
    assert "" + s == s;
  }

  /** An element in neither part is not in their concatenation. */
  lemma NotInConcat<T>(x: T, a: seq<T>, b: seq<T>)
    requires x !in a && x !in b
    ensures x !in a + b
  {
  }

  /** `pat` occurs in `s` at index `i`. */
  predicate OccursAt(s: string, pat: string, i: nat) {
    i + |pat| <= |s| && s[i..i + |pat|] == pat
  }

  /** `i` is the first index where `pat` occurs in `s`. */
  predicate FirstOccurrence(s: string, pat: string, i: nat) {
    OccursAt(s, pat, i) && forall j: nat :: j < i ==> !OccursAt(s, pat, j)
  }

  /** Java's `indexOf(pat, from)`: the first occurrence at or after `from`,
      or nothing (Kotlin's -1). */
  function IndexOfFrom(s: string, pat: string, from: nat): Option<nat>
    decreases |s| - from
  {
    if from + |pat| > |s| then None
    else if s[from..from + |pat|] == pat then Some(from)
    else IndexOfFrom(s, pat, from + 1)
  }

  /** The search finds the first occurrence at or after `from`, and finds
      nothing only when there is none. */
  lemma {:induction false} IndexOfFromSpec(s: string, pat: string, from: nat)
    ensures var r := IndexOfFrom(s, pat, from);
      && (r.Some? ==> from <= r.value && OccursAt(s, pat, r.value))
      && (r.Some? ==> forall j: nat :: from <= j < r.value ==> !OccursAt(s, pat, j))
      && (r.None? ==> forall j: nat :: from <= j ==> !OccursAt(s, pat, j))
    decreases |s| - from
  {
    if from + |pat| <= |s| && s[from..from + |pat|] != pat {
      IndexOfFromSpec(s, pat, from + 1);
    }
  }

  function IndexOf(s: string, pat: string): Option<nat> {
    IndexOfFrom(s, pat, 0)
  }

  /** `indexOf` finds an index exactly when the pattern occurs, and then the
      first one. */
  lemma IndexOfSpec(s: string, pat: string)
    ensures IndexOf(s, pat).Some? <==> exists i: nat :: OccursAt(s, pat, i)
    ensures IndexOf(s, pat).Some? ==> FirstOccurrence(s, pat, IndexOf(s, pat).value)
  {
    IndexOfFromSpec(s, pat, 0);
  }

  /** Kotlin's `replaceFirst(target, replacement)`: the first occurrence of
      `target` is replaced by `replacement`; without an occurrence the text
      is returned as is. */
  function ReplaceFirst(s: string, target: string, replacement: string): string {
    match IndexOf(s, target)
    case None => s
    case Some(i) =>
      IndexOfSpec(s, target);
      s[..i] + replacement + s[i + |target|..]
  }

  /** `replaceFirst` leaves a text without the pattern alone and otherwise
      splices the replacement in at the first occurrence. */
  lemma ReplaceFirstSpec(s: string, target: string, replacement: string)
    ensures (forall j: nat :: !OccursAt(s, target, j)) ==> ReplaceFirst(s, target, replacement) == s
    ensures forall i: nat :: FirstOccurrence(s, target, i) ==>
      ReplaceFirst(s, target, replacement) == s[..i] + replacement + s[i + |target|..]
  {
    IndexOfSpec(s, target);
    forall i: nat | FirstOccurrence(s, target, i)
      ensures ReplaceFirst(s, target, replacement) == s[..i] + replacement + s[i + |target|..]
    {
      assert OccursAt(s, target, i);
      FirstOccurrenceUnique(s, target, IndexOf(s, target).value);
    }
  }

  lemma FirstOccurrenceUnique(s: string, pat: string, i: nat)
    requires FirstOccurrence(s, pat, i)
    ensures forall k: nat :: FirstOccurrence(s, pat, k) ==> k == i
  {
  }

  /** The empty pattern occurs first at index 0, so replacing it prepends. */
  lemma ReplaceFirstEmpty(s: string, replacement: string)
    ensures ReplaceFirst(s, "", replacement) == replacement + s
  {
    assert OccursAt(s, "", 0);
    assert FirstOccurrence(s, "", 0);
    ReplaceFirstSpec(s, "", replacement);
    assert s[..0] + replacement + s[0..] == replacement + s;
  }

  /** Replacing a pattern by the empty string never makes the text longer,
      and shortens it by the pattern's length exactly when it occurs. */
  lemma ReplaceFirstRemoves(s: string, target: string)
    ensures |ReplaceFirst(s, target, "")| <= |s|
    ensures (exists i: nat :: OccursAt(s, target, i)) ==> |ReplaceFirst(s, target, "")| == |s| - |target|
    ensures (forall j: nat :: !OccursAt(s, target, j)) ==> ReplaceFirst(s, target, "") == s
    ensures forall i: nat :: FirstOccurrence(s, target, i) ==> ReplaceFirst(s, target, "") == s[..i] + s[i + |target|..]
  {
    var r := IndexOf(s, target);
    IndexOfSpec(s, target);
    ReplaceFirstSpec(s, target, "");
    if r.Some? {
      var i := r.value;
      FirstOccurrenceUnique(s, target, i);
      assert s[..i] + "" + s[i + |target|..] == s[..i] + s[i + |target|..];
    }
  }

  /** Removing a pattern from a text that starts with it gives the rest. */
  lemma ReplaceFirstLeading(pat: string, rest: string)
    ensures ReplaceFirst(pat + rest, pat, "") == rest
  {
    var s := pat + rest;
    assert OccursAt(s, pat, 0);
    assert FirstOccurrence(s, pat, 0);
    ReplaceFirstSpec(s, pat, "");
    assert s[|pat|..] == rest;
  }
}
